=== FILE: README.md ===
# dmosi-freertos: thread, process and primitive wrappers, modelled in Dafny

dmosi-freertos implements the portable dmosi thread and process API on top of
FreeRTOS tasks. It also wraps FreeRTOS counting semaphores, queues and software
timers. This project models the sequential logic of that layer and proves
properties of it.

Every critical section (`taskENTER_CRITICAL` … `taskEXIT_CRITICAL`) and every
non-blocking API call is one pure step function over an abstract kernel state,
`Kernel.Sys`. That state holds:

- the tasks, each with its alive flag, its start parameter, the one TLS slot
  the layer uses, its pending-notification count, and whether it deleted
  itself and still awaits the idle task that frees its control block (until
  then `uxTaskGetSystemState` still lists it);
- the heap-allocated thread and process records, as maps from references
  (`None` is NULL, and a freed record is one that is no longer in its map);
- the globals `g_next_pid`, `g_system_process` and `g_init_process`.

A call that blocks in `ulTaskNotifyTake` is split into a start step and a resume
step. What other tasks do in between is the caller of the model's business.

The lifecycle invariant `Kernel.Valid` says that a record which still "claims"
its task names a live task bound to that record. "Claims" means the record has a
handle and is either not completed or was registered lazily. The binding is
through the task's TLS slot once it runs, or through its start parameter before
that. Every corrected step preserves `Valid`. Native `vTaskDelete`
(`Kernel.DeleteTask`) requires a live task, so on a valid state no step can hand
the kernel an ended task.

Modules, one file each:

- `base.dfy` (`Base`): NULL as `Option`, return codes, build-time configuration.
- `ticks.dfy` (`Ticks`): millisecond/tick conversions and the mapping of a
  bounded wait onto return codes.
- `kernel.dfy` (`Kernel`): the abstract state, the invariant and the kernel
  primitives.
- `processes.dfy` (`Processes`): `src/dmosi_process.c`.
- `threads.dfy` (`Threads`): the handle lifecycle of `src/dmosi_thread.c`.
- `threadinfo.dfy` (`ThreadInfo`): the integer part of `_thread_get_info`.
- `enumeration.dfy` (`Enumeration`): `thread_enumerate`, as a loop with
  invariants.
- `semaphores.dfy`, `queues.dfy`, `timers.dfy`: the three primitive wrappers,
  over an abstract counting semaphore (count in [0, max]), a bounded FIFO and a
  timer with a period and an active flag.

Each step function returns the new state and the value or code the C function
returns. The kernel's answers are parameters:

- whether an allocation succeeded;
- whether `xTaskCreate` or a timer command succeeded;
- whether another task posted, sent or received before the wait ran out (for
  a wait with no limit: at all; a call that nobody serves then stays blocked
  and returns no code);
- the `vTaskGetInfo` snapshot;
- the clock rate.

## Model

| member | source | states |
|---|---|---|
| Base.Status.ToInt | src/dmosi_semaphore.c:107-113 | 0 exactly for success, a negative errno for every error code |
| Base.Prefix | src/dmosi_process.c:45-50 | the copy kept by a bounded strncpy is a prefix of the input of length min(length, bound) |
| Kernel.Empty | src/dmosi_thread.c:33 | the state before any task or record exists satisfies the lifecycle invariant |
| Kernel.ClaimsUnique | src/dmosi_thread.c:41-50 | on a state whose claiming records are bound, no two claiming records name the same task |
| Kernel.DeleteTask | src/dmosi_thread.c:489 | vTaskDelete of another task needs a live task; afterwards exactly that task is gone and its slot is untouched |
| Kernel.DeleteSelf | src/dmosi_thread.c:129 | vTaskDelete(NULL) needs a live caller; afterwards exactly that task has ended and stays listed until it is freed, its slot untouched |
| Kernel.NotifyGive | src/dmosi_thread.c:121-123 | xTaskNotifyGive raises only the target's pending count, and leaves an ended task alone |
| Kernel.NotifyIfAny | src/dmosi_thread.c:483-485 | notifying a captured joiner or waiter changes only that task's pending count |
| Kernel.SameLifecyclePreservesValid | src/dmosi_thread.c:259-292 | rewriting a record's joined, joiner or process fields keeps the lifecycle invariant |
| Kernel.NotifyPreservesValid | src/dmosi_thread.c:121-123 | notifying keeps the lifecycle invariant |
| Kernel.NotifyTakePreservesValid | src/dmosi_thread.c:276 | consuming the caller's notifications keeps the lifecycle invariant |
| Kernel.NotifyCountsPreserveValid | src/dmosi_process.c:211 | any change confined to notification counts keeps the lifecycle invariant |
| Ticks.MsToTicksFloor | src/dmosi_semaphore.c:102 | pdMS_TO_TICKS is the whole number of ticks in the duration: t*1000 <= ms*hz < (t+1)*1000 |
| Ticks.MsToTicks | src/dmosi_timer.c:27-34 | 0 ms gives 0 ticks; a positive duration gives at least one tick, exactly one when shorter than a tick, and otherwise the floor |
| Ticks.MsToTickCount | src/dmosi_timer.c:27-34 | the same with pdMS_TO_TICKS's cast to a 32-bit TickType_t; it agrees with MsToTicks whenever the floor fits |
| Ticks.TicksToMsAsWritten | src/dmosi_timer.c:219-221 | the read-back period is the whole number of milliseconds in the product reduced modulo 2^32: ms*hz <= (ticks*1000) mod 2^32 < (ms+1)*hz |
| Ticks.TicksToMs | src/dmosi_timer.c:219-221 | the read-back period is the whole number of milliseconds in the ticks: ms*hz <= ticks*1000 < (ms+1)*hz |
| Ticks.TicksTimesThousandFits64 | src/dmosi_timer.c:221 | a 32-bit tick count times 1000 fits in 64 bits |
| Ticks.PeriodRoundTrip | src/dmosi_timer.c:27-34 | ms to ticks and back is the identity on periods that are a whole number of ticks |
| Ticks.PeriodReadBackAtMostRequest | src/dmosi_timer.c:213-221 | for a period of at least one tick, the read-back never exceeds the request |
| Ticks.PeriodReadBackAtLeastShortRequest | src/dmosi_timer.c:30-32 | for a period shorter than a tick, the one-tick bump makes the read-back at least the request |
| Ticks.PeriodHundredMsRoundTrips | tests/main.c:277-281 | 100 ms reads back as 100 ms at 1 kHz and at 100 Hz |
| Ticks.PeriodReadBackWrapsAsWritten | src/dmosi_timer.c:221 | 5,000,000 ms at 1 kHz reads back as 705,032 ms as written and as 5,000,000 ms widened |
| Ticks.TimeoutDelay | src/dmosi_semaphore.c:94-103 | negative waits forever, 0 does not wait, positive is converted with no minimum bump |
| Ticks.TimeoutTicksBelowMaxDelay | src/dmosi_queue.c:96-105 | an int32_t timeout at up to 2 kHz converts to a tick count below portMAX_DELAY |
| Ticks.ShortTimeoutCollapsesToNoWait | src/dmosi_semaphore.c:100-103 | a positive timeout shorter than a tick becomes a zero-tick wait |
| Ticks.Served | src/dmosi_semaphore.c:94-105 | the kernel's answer to a wait for something not available: pdTRUE iff the call may block and is served, no return iff it has no limit and is not served, pdFALSE otherwise |
| Ticks.WaitStatus | src/dmosi_semaphore.c:107-113 | 0 iff the kernel returned pdTRUE; after pdFALSE, EAGAIN iff zero ticks were allowed, else ETIMEDOUT; no code iff the call has not returned |
| Ticks.OnlyBoundedWaitsTimeOut | src/dmosi_semaphore.c:94-96 | a wait with no limit is served with 0 or stays blocked, iff nobody serves it; only a positive timeout times out |
| Ticks.ProcessTimeoutStatus | src/dmosi_process.c:213-219 | a timed-out process wait reports EAGAIN iff timeout_ms is 0 |
| Ticks.ShortTimeoutReportsDiffer | src/dmosi_process.c:207-219 | a positive timeout shorter than a tick fails with EAGAIN in the semaphore and queue wrappers but with ETIMEDOUT in process wait |
| Processes.StoredName | src/dmosi_process.c:45-50 | the stored name is the first nameMax-1 characters of the input, or "" for NULL |
| Processes.ProcessNew | src/dmosi_process.c:38-65 | a failed allocation changes nothing; otherwise a new record with the next pid, uid 0, pwd "/", state CREATED, exit status 0 and no waiter, the counter advanced and nothing else changed |
| Processes.SuccessivePidsIncrease | src/dmosi_process.c:29-53 | two successive creations get distinct records with increasing pids |
| Processes.ProcessInit | src/dmosi_process.c:78-88 | a no-op when the system process exists or allocation fails; otherwise a new RUNNING system process with the configured name, the next pid and process_new's other defaults, the pid counter advanced, and every other record and global unchanged |
| Processes.ProcessInitIdempotent | src/dmosi_process.c:80-82 | a second init changes nothing |
| Processes.ProcessDeinit | src/dmosi_process.c:95-101 | frees the system process if any and clears the global; nothing else changes and the lifecycle invariant is kept |
| Processes.InitThenDeinitFreesSystemProcess | src/dmosi_process.c:78-101 | init then deinit restores the records; only the pid counter moved on |
| Processes.ProcessDestroy | src/dmosi_process.c:131-138 | NULL is ignored; otherwise exactly that record is freed; nothing else changes and the lifecycle invariant is kept |
| Processes.ProcessKill | src/dmosi_process.c:150-169 | NULL gives EINVAL; otherwise exit status and TERMINATED are recorded, the waiter is notified, and 0 is returned; only the process records and the waiter's pending count change, and the lifecycle invariant is kept |
| Processes.WaitStart | src/dmosi_process.c:182-205 | NULL gives EINVAL; a terminated or zombie process gives 0 without registering; a taken waiter slot gives EBUSY; otherwise the caller registers and blocks |
| Processes.WaitResume | src/dmosi_process.c:207-221 | a pending notification gives 0; a timeout clears the waiter and reports by the millisecond value; an unbounded wait, or a bounded wait of at least one tick that has not run out, stays blocked |
| Processes.NonBlockingWaitWouldBlock | src/dmosi_process.c:207-219 | wait(0) on a running process with nothing pending returns EAGAIN and frees the slot |
| Processes.KillWakesWaiter | src/dmosi_process.c:150-221 | a kill wakes the blocked waiter with 0 and the exit status stored, and a later wait returns 0 at once |
| Processes.ProcessCurrent | src/dmosi_process.c:233-249 | the caller's record's process if set; the system process when the caller has no record or its record has no process |
| Processes.SetCurrent | src/dmosi_process.c:260-282 | EINVAL, with nothing changed, for a NULL process, no current task or no record, and 0 otherwise; on success only that record's process changes, and process_current returns the new process |
| Processes.GetState | src/dmosi_process.c:290-296 | NULL reads as TERMINATED |
| Processes.GetId | src/dmosi_process.c:304-310 | NULL reads as pid 0 |
| Processes.SetId | src/dmosi_process.c:319-326 | NULL gives EINVAL and changes nothing; otherwise 0, and only that record's pid changes |
| Processes.GetName | src/dmosi_process.c:334-340 | NULL reads as NULL |
| Processes.SetUid | src/dmosi_process.c:349-356 | NULL gives EINVAL and changes nothing; otherwise 0, and only that record's uid changes |
| Processes.GetUid | src/dmosi_process.c:364-370 | NULL reads as uid 0 |
| Processes.SetPwd | src/dmosi_process.c:379-387 | a NULL process or path gives EINVAL and changes nothing; otherwise 0, and only that record's directory changes, to the first pathMax-1 characters of the path |
| Processes.GetPwd | src/dmosi_process.c:395-401 | NULL reads as NULL |
| Processes.SettersReadBack | src/dmosi_process.c:319-401 | each setter is read back by its getter, the path truncated to pathMax-1, and the other fields are untouched |
| Processes.FreshProcessDefaults | src/dmosi_process.c:56-62 | a new process reads back uid 0, pwd "/", CREATED, its stored name and the counter's pid |
| Processes.FindByName | src/dmosi_process.c:412-424 | finds nothing but the system process, and nothing for a NULL name |
| Processes.FindByNameExact | src/dmosi_process.c:412-424 | with a stored name shorter than the bound, the lookup succeeds iff the name is the system process's name |
| Processes.SystemProcessFoundByName | src/dmosi_process.c:78-88 | after init the system process is found by its configured name |
| Processes.FindById | src/dmosi_process.c:435-442 | finds the system process iff its pid matches, and nothing else |
| Threads.NewRecord | src/dmosi_thread.c:63-84 | a record is completed from birth iff it has no entry, starts unjoined with no joiner, and claims its task iff it has a handle |
| Threads.StackWords | src/dmosi_thread.c:166-168 | below the size_t wrap the depth is ceil(bytes/W): words*W >= bytes and (words-1)*W < bytes |
| Threads.StackWordsWrapNearSizeMax | src/dmosi_thread.c:168 | at the top of size_t the rounding addition wraps and the depth covers far fewer bytes than requested |
| Threads.Create | src/dmosi_thread.c:150-185 | NULL with nothing allocated for a NULL entry or name, a zero size, or a failed allocation or spawn; otherwise a fresh claiming record bound to a fresh unstarted task, in the given or current process; no process record or process global changes; the invariant is kept |
| Threads.CreatePreservesValid | src/dmosi_thread.c:161-184 | adding a fresh record bound to a fresh task keeps the lifecycle invariant |
| Threads.CreatedStackCoversRequest | src/dmosi_thread.c:166-177 | the created task's stack holds the requested bytes with less than one word to spare |
| Threads.WrapperStart | src/dmosi_thread.c:101-103 | the task stores its start parameter in its TLS slot; the invariant is kept |
| Threads.WrapperFinish | src/dmosi_thread.c:109-129 | the record is marked completed, the task clears its own slot and deletes itself (listed until freed), no other task ends or changes slot, a live joiner is notified; the invariant is kept |
| Threads.FinishPreservesValid | src/dmosi_thread.c:109-129 | completing a record and deleting its own task keeps the lifecycle invariant |
| Threads.DestroyAsWritten | src/dmosi_thread.c:200-227 | NULL is a no-op; otherwise the record is freed, TLS is cleared only for a not-completed record (a completed record leaves every task untouched), and the task is deleted only if not completed, present and not the caller |
| Threads.Destroy | src/dmosi_thread.c:200-227 | as written, except that no live task's TLS slot names the freed record afterwards; the caller survives and the invariant is kept |
| Threads.DestroyPreservesValid | src/dmosi_thread.c:211-226 | freeing a record whose TLS references are cleared or whose task is deleted keeps the lifecycle invariant |
| Threads.DestroyAsWrittenLeavesDanglingTls | src/dmosi_thread.c:211 | destroy(current()) as written leaves the caller's TLS slot naming the freed record |
| Threads.DestroyCurrentClearsTls | src/dmosi_thread.c:211-216 | with the claims guard, destroy(current()) leaves the caller's slot empty |
| Threads.JoinStart | src/dmosi_thread.c:238-268 | NULL and already joined give EINVAL, a registered joiner gives EBUSY, each with the state unchanged; a completed, unjoined record with no joiner is joined with 0 and only its joined flag changes; otherwise the caller registers and blocks |
| Threads.JoinResume | src/dmosi_thread.c:270-292 | with nothing pending the caller stays blocked; otherwise the notification is consumed, and the call returns 0 and sets joined iff the record has completed |
| Threads.KillTargetAsWritten | src/dmosi_thread.c:487-493 | kill as written deletes whatever task the handle names |
| Threads.KillTarget | src/dmosi_thread.c:487-493 | the corrected target is the handle iff the record still claims its task |
| Threads.KillTargetIsLiveHandle | src/dmosi_thread.c:487-493 | on a valid state the corrected target is set iff the handle names a live task; it equals the as-written target iff the handle is NULL or live; a self-kill still deletes the caller |
| Threads.Kill | src/dmosi_thread.c:467-496 | NULL gives EINVAL; otherwise 0, the record completed, exactly the claimed task ended with its slot cleared (a self-kill leaves the caller listed until freed), a surviving joiner notified and every other record and slot unchanged; the invariant is kept |
| Threads.KillState | src/dmosi_thread.c:477-493 | the record is completed and loses its handle iff its task was deleted; only the target's alive flag, slot and self-deletion mark and notification counts change |
| Threads.KillMark | src/dmosi_thread.c:477-485 | the critical section marks the record completed, and the captured live joiner gets one notification |
| Threads.KillDelete | src/dmosi_thread.c:487-493 | exactly the target task is deleted after its slot is cleared, by self-deletion iff it is the caller, and the record forgets its handle |
| Threads.KillStateAsWritten | src/dmosi_thread.c:477-493 | kill as written: the record is completed and keeps its handle, every slot is untouched, only the live task the handle names ends, and a self-kill leaves the caller listed |
| Threads.KillStateNotifiesJoiner | src/dmosi_thread.c:483-485 | a live joiner other than the deleted task is notified |
| Threads.KillPreservesValid | src/dmosi_thread.c:467-496 | the corrected kill keeps the lifecycle invariant |
| Threads.KillAsWrittenDeletesEndedTask | src/dmosi_thread.c:488-489 | after create, run and return, kill as written hands the ended task to vTaskDelete; the corrected target is empty |
| Threads.Current | src/dmosi_thread.c:314-345 | no task gives NULL; an existing record is returned unchanged; otherwise a new completed, entry-less record in the lazily chosen process is stored in TLS, or NULL on allocation failure; no process record or process global changes; the invariant is kept |
| Threads.LazyRegisterPreservesValid | src/dmosi_thread.c:326-343 | registering the caller lazily keeps the lifecycle invariant |
| Threads.CurrentIdempotent | src/dmosi_thread.c:318-323 | once registered, current() returns the same record and changes nothing |
| Threads.LazyRecordCompletedAtBirth | src/dmosi_thread.c:77 | a lazily registered record is completed with no entry and no stack, joins at once, and destroying it never deletes the caller |
| Threads.SetInitProcess | src/dmosi_thread.c:716-719 | only the init-process fallback changes |
| Threads.InitProcessGovernsLazyRegistration | src/dmosi_thread.c:326-336 | lazy registration attributes the caller to the fallback when set, else to the system process, and process_current agrees |
| Threads.UnregisterCurrent | src/dmosi_thread.c:729-743 | a no-op without a record; otherwise the slot is cleared and exactly that record freed, with no task deleted; the invariant is kept |
| Threads.GetProcess | src/dmosi_thread.c:445-456 | a record's process; for NULL the caller's own record, registered lazily, and NULL when that fails |
| Threads.GetProcessOfCallerIsCurrentProcess | src/dmosi_thread.c:445-456 | for a registered caller, get_process(NULL) agrees with process_current |
| Threads.UnregisterThenCurrentReregisters | src/dmosi_thread.c:729-743 | after unregistering, current() registers the caller with a new record |
| Threads.SleepBlocksAtLeastOneTick | src/dmosi_thread.c:354-365 | a non-zero sleep blocks at least one tick, a zero sleep none, otherwise the floor |
| Threads.JoinAfterFinish | tests/main.c:361-371 | a thread that returned is joined with 0, and a second join gives EINVAL |
| Threads.BlockedJoinWokenByFinish | src/dmosi_thread.c:109-129 | a joiner blocked on a running thread is notified by its completion and then returns 0 |
| Threads.KillThenJoin | tests/main.c:373-381 | after killing another thread, joining it returns 0 at once |
| Threads.BlockedJoinWokenByKill | src/dmosi_thread.c:477-485 | a joiner blocked on a thread is notified when another task kills it and then returns 0 |
| ThreadInfo.MapState | src/dmosi_thread.c:638-645 | each live native state maps to its own state; deleted and invalid map to terminated |
| ThreadInfo.MapStateSeparatesLiveStates | src/dmosi_thread.c:638-645 | two native states reported as the same live state are equal |
| ThreadInfo.StackPeak | src/dmosi_thread.c:650-651 | the peak is at most the total, positive iff the total exceeds the free bytes, and then total minus free |
| ThreadInfo.RuntimeMs | src/dmosi_thread.c:681-684 | floor(counter*1000/freq) for a positive rate; 0 for a non-positive rate, which also stands for builds without sysconf (src/dmosi_thread.c:688-690) |
| ThreadInfo.SplitDivisionExact | src/dmosi_thread.c:683-684 | dividing before multiplying gives exactly floor(counter*1000/freq) |
| ThreadInfo.SplitProductFits64 | src/dmosi_thread.c:683-684 | with a 64-bit counter the sub-second product fits in 64 bits while the direct product counter*1000 does not for large counters; with a 32-bit counter the whole-second product fits as well |
| ThreadInfo.InfoQueriesOnlyLiveTasks | src/dmosi_thread.c:623-631 | on a valid state the terminated test holds iff the record no longer claims its task, so vTaskGetInfo is only asked about live tasks |
| ThreadInfo.InfoOf | src/dmosi_thread.c:619-684 | an ended record reports terminated with zero stack use and runtime; otherwise the mapped state, the clamped peak and the split runtime |
| ThreadInfo.GetInfo | src/dmosi_thread.c:605-694 | a NULL info pointer gives EINVAL; NULL thread means the caller, EFAULT iff it cannot be registered; otherwise 0 with the record's info |
| ThreadInfo.FinishedThreadReportsTerminated | src/dmosi_thread.c:623-631 | after its entry returns, a thread reports terminated with zeros whatever the snapshot says |
| ThreadInfo.LazyRecordReportsLive | src/dmosi_thread.c:623-645 | the caller's lazily registered record is reported live, with a zero stack size |
| ThreadInfo.KillAsWrittenKeepsLazyHandle | src/dmosi_thread.c:488-489 | a lazily registered record killed as written by another task keeps the deleted task's handle, is not ended, and is reported with the snapshot's state |
| ThreadInfo.KilledLazyRecordReportsTerminated | src/dmosi_thread.c:623-631 | after the corrected kill the same record reports terminated with zeros |
| Enumeration.Matches | src/dmosi_thread.c:533-545 | the selected records lie in the snapshot and match the filter |
| Enumeration.MatchesComplete | src/dmosi_thread.c:533-545 | every selected slot contributes its record |
| Enumeration.MatchesDistinct | src/dmosi_thread.c:533-545 | distinct slots give distinct matches |
| Enumeration.Enumerate | src/dmosi_thread.c:519-554 | 0 on allocation failure; the total count with NULL output; otherwise min(count, max_count) with the first matches in snapshot order |
| Enumeration.Slots | src/dmosi_thread.c:528-535 | the walked slots are the snapshot tasks' TLS slots, in order |
| Enumeration.Owners | src/dmosi_thread.c:539-541 | each record's owning process |
| Enumeration.SnapshotEnumeratesDistinct | src/dmosi_thread.c:567-587 | on a valid state, for a snapshot that may also list self-deleted tasks not yet freed, every slot names a record and the enumerated handles are distinct |
| Enumeration.RegisteredCallerCounted | tests/main.c:384-390 | a registered task in the snapshot is counted with no filter and under its own process |
| Enumeration.StaleSlotEnumerated | src/dmosi_thread.c:528-545 | a listed self-deleted task whose slot still names a record yields that record, and after the record is freed its slot names nothing known |
| Enumeration.EmptySlotSkipped | src/dmosi_thread.c:531-534 | a listed task with an empty slot yields nothing |
| Enumeration.SelfKillAsWrittenLeavesStaleSlot | src/dmosi_thread.c:490-492 | a thread that kills itself as written is still listed and enumerated as its record, and once that record is freed the listed slot names freed memory |
| Enumeration.SelfKillClearsSlot | src/dmosi_thread.c:116-118 | after the corrected self-kill the listed task yields nothing, before and after its record is destroyed |
| Semaphores.Create | src/dmosi_semaphore.c:31-49 | NULL iff max is 0, initial exceeds max, or allocation or creation fails; otherwise a semaphore with that count and max |
| Semaphores.Take | src/dmosi_semaphore.c:105 | pdTRUE iff a unit is available, or the wait may block and one is posted; no return iff the semaphore is empty, the wait has no limit and nobody posts; only an available unit is consumed |
| Semaphores.Wait | src/dmosi_semaphore.c:85-114 | NULL gives EINVAL; an available unit is taken with 0; on an empty semaphore, the timeout mapping; wait(-1) stays blocked iff the semaphore is empty and nobody posts; ETIMEDOUT only for a positive timeout; the count stays in [0, max] |
| Semaphores.Post | src/dmosi_semaphore.c:124-134 | NULL gives EINVAL; below max the count rises with 0; at max EOVERFLOW and nothing changes |
| Semaphores.PostWaitInverse | src/dmosi_semaphore.c:85-134 | a successful post is undone by a wait, and a successful wait by a post |
| Semaphores.EmptyWaitOutcomes | src/dmosi_semaphore.c:107-113 | on an empty semaphore wait(0) gives EAGAIN; wait(-1) returns 0 once posted and otherwise stays blocked; an unserved bounded wait of at least one tick gives ETIMEDOUT; only a positive timeout times out |
| Semaphores.SemaphoreScenario | tests/main.c:123-169 | the test's sequence with (1, 5): 0, EAGAIN, 0, 0, five posts to max, then EOVERFLOW; (0,0) and (5,3) are rejected; NULL gives EINVAL |
| Queues.Create | src/dmosi_queue.c:31-52 | NULL iff item size or length is 0, or allocation or creation fails; otherwise an empty queue of that length |
| Queues.Put | src/dmosi_queue.c:107 | pdTRUE iff there is room, or the send may block and a slot is freed; no return iff the queue is full, the wait has no limit and nobody receives; the item goes to the back |
| Queues.Take | src/dmosi_queue.c:149 | the oldest item is taken when there is one; otherwise only an item sent during a blocking wait; no return iff the queue is empty, the wait has no limit and nothing is sent |
| Queues.Send | src/dmosi_queue.c:87-116 | a NULL queue or item gives EINVAL; with room, the item is appended and 0 returned; when full, the timeout mapping, and send(-1) stays blocked iff nobody receives; ETIMEDOUT only for a positive timeout; nothing changes on failure |
| Queues.Receive | src/dmosi_queue.c:129-158 | a NULL queue or buffer gives EINVAL; otherwise the oldest item with 0, or the timeout mapping, and receive(-1) on an empty queue stays blocked iff nothing is sent; ETIMEDOUT only for a positive timeout; an item comes back iff the code is 0 |
| Queues.FullSendOutcomes | src/dmosi_queue.c:96-116 | on a full queue send(0) gives EAGAIN; send(-1) succeeds once drained and otherwise stays blocked; an unserved bounded send of at least one tick gives ETIMEDOUT |
| Queues.EmptyReceiveOutcomes | src/dmosi_queue.c:138-158 | on an empty queue receive(0) gives EAGAIN; receive(-1) returns the sent item and otherwise stays blocked; an unserved bounded receive of at least one tick gives ETIMEDOUT |
| Queues.FifoRoundTrip | src/dmosi_queue.c:87-116 | sending a sequence with room for it appends it in order |
| Queues.SendAll | src/dmosi_queue.c:87-116 | successive sends keep the queue well formed |
| Queues.ReceiveAll | src/dmosi_queue.c:129-158 | successive receives keep the queue well formed |
| Queues.ReceiveAllTakesPrefix | src/dmosi_queue.c:129-158 | n receives take the first n items in order and leave the rest |
| Queues.FifoOrder | tests/main.c:185-206 | what is sent into an empty queue comes out in the same order, leaving it empty |
| Queues.QueueScenario | tests/main.c:174-229 | the test's sequence on a queue of 5: 42 round-trips, a sixth send gives EAGAIN, the drain returns 0..4, a further receive gives EAGAIN, NULL arguments give EINVAL |
| Timers.Create | src/dmosi_timer.c:71-101 | NULL iff the callback is NULL, the period 0, or allocation or creation fails; otherwise a dormant timer with the converted period |
| Timers.Control | src/dmosi_timer.c:131-180 | NULL gives EINVAL; a refused command gives EIO and changes nothing; otherwise start and reset activate, stop deactivates, and the period is kept |
| Timers.SetPeriod | src/dmosi_timer.c:192-203 | a NULL timer or zero period gives EINVAL, a refused command EIO; otherwise the converted period, and the timer runs |
| Timers.GetPeriodAsWritten | src/dmosi_timer.c:213-222 | NULL reads 0; otherwise the whole number of milliseconds in period*1000 reduced modulo 2^32: ms*hz <= (period*1000) mod 2^32 < (ms+1)*hz |
| Timers.GetPeriod | src/dmosi_timer.c:213-222 | NULL reads 0; otherwise the whole milliseconds in the period, as a uint32_t |
| Timers.GetPeriodAgreesBelowWrap | src/dmosi_timer.c:221 | the as-written and widened readings agree whenever ticks*1000 < 2^32 |
| Timers.SetThenGetPeriod | tests/main.c:277-281 | setting a period that is a whole number of ticks reads it back exactly |
| Timers.GetPeriodAtMostRequest | src/dmosi_timer.c:192-221 | a period of at least one tick reads back no larger than requested |
| Timers.LongPeriodReadBackWrapsAsWritten | src/dmosi_timer.c:221 | a 5,000,000 ms timer at 1 kHz reports 705,032 ms as written and 5,000,000 ms widened |
| Timers.TimerScenario | tests/main.c:242-305 | the test's sequence: created dormant, started, stopped, reset, period 100 read back; NULL callback, zero period and NULL handle are refused |

## Left out

- The mutex wrapper, the heap and malloc forwarding, the tick-count getter and
  the configuration headers: these are forwarding and constants with no logic of
  their own.
- `dmosi_init` and `dmosi_deinit` are not part of this model; only the process
  init and deinit helpers they call are modelled.
- Real preemption: each critical section is one atomic step. The window in
  `thread_wrapper` between the completion mark and the self-deletion is taken as
  one step (`Threads.WrapperFinish`). This is sound for the layer's own state,
  since no API call reads the task while that window is open.
- Blocking: a blocked call is a start/resume pair. Whether another task posted,
  sent, received or notified in time is a parameter, and there is no scheduler,
  fairness or timing. A wait with no limit (`portMAX_DELAY`) is taken to block
  for good, as with INCLUDE_vTaskSuspend set, which the "-1 = wait forever"
  of the wrappers assumes; such a wait that nobody serves ends in `Blocked`,
  not in a return code.
- Kernel internals: FreeRTOS semaphores and queues are an abstract count and an
  abstract FIFO. Timer firing, auto-reload and expiry times are not modelled, so
  start and reset differ only in name.
- `_thread_get_name`, `_thread_get_module_name` and `_thread_get_priority`: they
  only forward kernel strings and numbers.
- The floating-point `cpu_usage` of `_thread_get_info` and the `sysconf` call:
  the clock rate is a parameter.
- `_semaphore_destroy`, `_queue_destroy` and `_timer_destroy`: they free kernel
  objects and memory, and the primitives have no heap in this model.
- The thread entry function, its argument, the priority and the task name are
  seen only as "present or NULL".
- Ticks.TimeoutDelay: does not truncate the tick count to 32 bits.
  `Ticks.TimeoutTicksBelowMaxDelay` shows this loses nothing for tick rates up to
  2 kHz.
- Threads.StackWords: its ceiling contract is stated only below the size_t wrap.
  `Threads.StackWordsWrapNearSizeMax` shows the wrap above it. `UBaseType_t` is
  taken to be as wide as size_t.
- ThreadInfo.RuntimeMs: returns an unbounded natural number. The C sum is a
  uint64_t, and with a 64-bit run-time counter `(counter / freq) * 1000`
  wraps modulo 2^64 once `counter / freq >= 2^64 / 1000`. The counter's width
  (configRUN_TIME_COUNTER_TYPE) is set outside these sources.
  `ThreadInfo.SplitProductFits64` shows that no wrap occurs for a 32-bit
  counter.
- Processes.ProcessNew: pids are unbounded natural numbers. The C counter
  `g_next_pid` is a fixed-width `dmod_process_id_t`
  (`src/dmosi_process.c:29`, `:53`) whose width is set outside these sources.
  After it wraps, pids repeat and 0, which `_process_get_id` reports for
  NULL, is handed out. `Processes.SuccessivePidsIncrease` therefore holds
  only below that wrap.
- Tick width: TickType_t is 32 bits, as in every 32-bit target
  configuration. The posix and arm_aarch64 configurations select 64-bit
  ticks (`config/arch/posix/FreeRTOSConfigArch.h:12`,
  `config/arch/arm_aarch64/FreeRTOSConfigArch.h:12`) and are not modelled.
  The third finding below applies to 32-bit tick configurations only.
- Threads.Kill: does not store the exit status, because the C function discards
  it.
- Enumeration.Enumerate: works on the snapshot uxTaskGetSystemState returned. A
  task created between sizing the snapshot and filling it is not modelled.
- The idle task: a task that deleted itself stays marked as awaiting the idle
  task for good. `Enumeration.Snapshot` allows such a task to be listed but
  does not require it, so every result about a snapshot holds before and
  after the idle task frees it.
- Threads.KillStateAsWritten: when the handle names a task that has already
  ended, it deletes nothing, because deleting a freed task has no meaning in
  the kernel model. That case is the first finding below and is shown by
  `Threads.KillTargetAsWritten`.
- Processes.GetState, Processes.GetId, Processes.GetName, Processes.GetUid and
  Processes.GetPwd: their contracts state only the NULL case. What they read is
  stated by `Processes.SettersReadBack` and `Processes.FreshProcessDefaults`.
- Struct layout: `src/dmosi_process.c` reads and writes the process field of the
  TLS object through `struct dmod_thread` (`src/dmosi_freertos_internal.h:24-33`,
  used at `src/dmosi_process.c:243` and `:280`). `struct dmod_thread` has a
  module-name array before that field. The object actually stored in TLS is
  `struct dmosi_thread` (`src/dmosi_thread.c:41-50`), so the two files disagree
  on the field's offset. The model uses one record type, so this mismatch does
  not appear in it.
- The double join in the thread test (`tests/main.c:367-371`) runs on a handle
  that destroy has already freed. Any use of a freed record is outside the
  model, so `Threads.JoinAfterFinish` performs the second join before destroy.

## Findings

| source | as written | input that shows it | evidently intended | confidence | as-written member | corrected member |
|---|---|---|---|---|---|---|
| src/dmosi_thread.c:488-493 | kill deletes whatever task the handle names, even after the task returned from its entry and deleted itself | create a thread, let it run to completion, then kill it: the ended task is handed to vTaskDelete | delete only a task the record still claims, as destroy's `!completed` guard does | not executed | Threads.KillTargetAsWritten, Threads.KillAsWrittenDeletesEndedTask | Threads.KillTarget, Threads.Kill, Threads.KillTargetIsLiveHandle |
| src/dmosi_thread.c:490-492 | a thread that kills itself deletes itself with its TLS slot still naming its record, unlike thread_wrapper, which clears the slot first (src/dmosi_thread.c:116-118) | a created thread calls kill on its own record: until the idle task frees it, enumeration still lists it and returns the killed thread, and after destroy the slot names freed memory that the process filter reads | clear the caller's slot before deleting itself | not executed | Threads.KillStateAsWritten, Enumeration.SelfKillAsWrittenLeavesStaleSlot | Threads.Kill, Enumeration.SelfKillClearsSlot |
| src/dmosi_thread.c:488-489 | kill deletes the task but never clears `thread->handle`, and the terminated test (src/dmosi_thread.c:624) looks only at the handle for a record without an entry | a task registers itself lazily through current(), another task kills it, then get_info on the record: vTaskGetInfo is asked about the deleted task | forget the handle once the task is deleted | not executed | Threads.KillStateAsWritten, ThreadInfo.KillAsWrittenKeepsLazyHandle | Threads.Kill, ThreadInfo.KilledLazyRecordReportsTerminated |
| src/dmosi_thread.c:211 | destroy clears the TLS slot only for a record that has not completed, but lazily registered records are completed from birth | destroy(current()) on a task without a record: the TLS slot still names the freed record | clear the slot of any record that still claims its task | not executed | Threads.DestroyAsWritten, Threads.DestroyAsWrittenLeavesDanglingTls | Threads.Destroy, Threads.DestroyCurrentClearsTls |
| src/dmosi_timer.c:221 | `period_ticks * 1000` is computed in the 32-bit TickType_t and wraps before the division | a 5,000,000 ms period at 1 kHz reads back as 705,032 ms | widen the product to 64 bits before dividing | not executed | Ticks.TicksToMsAsWritten, Timers.GetPeriodAsWritten, Timers.LongPeriodReadBackWrapsAsWritten | Ticks.TicksToMs, Timers.GetPeriod, Timers.GetPeriodAgreesBelowWrap |

Where this model and the behaviour described for the project differ, the model
follows the C code. The destroy TLS guard above is the code's guard
(`!completed`). It is modelled as written in `Threads.DestroyAsWritten`, and the
widened guard is used by the rest of the model.

=== FILE: base.dfy ===
/** Shared vocabulary of the model: optional values (C's nullable pointers),
    the error codes the API returns, and the build-time configuration that
    the C sources take from FreeRTOSConfig.h and the platform headers. */
module Base {

  /** A nullable pointer: `None` is C's NULL. */
  datatype Option<+T> = None | Some(value: T)

  /** The return codes of the API. `Success` is 0; every other value is the
      negated errno constant of the same name. */
  datatype Status = Success | Einval | Ebusy | Eagain | Etimedout | Eoverflow | Efault | Eio
  {
    /** The integer the C function returns, with the errno values of Linux/glibc. */
    function ToInt(): (r: int)
      ensures r == 0 <==> this == Success
      ensures r <= 0
    {
      match this
      case Success => 0
      case Einval => -22
      case Ebusy => -16
      case Eagain => -11
      case Etimedout => -110
      case Eoverflow => -75
      case Efault => -14
      case Eio => -5
    }
  }

  /** The build-time constants the sources depend on.
      - `hz`: configTICK_RATE_HZ
      - `wordBytes`: sizeof(StackType_t)
      - `sizeMod`: 2^(bits of size_t)
      - `nameMax`: DMOD_MAX_MODULE_NAME_LENGTH
      - `pathMax`: DMOD_MAX_PATH_LENGTH
      - `systemName`: DMOSI_SYSTEM_MODULE_NAME */
  datatype Config = Config(hz: nat, wordBytes: nat, sizeMod: nat, nameMax: nat, pathMax: nat, systemName: string)
  {
    /** What the sources take for granted of these constants. */
    predicate Ok() {
      && hz > 0
      && wordBytes > 0
      && sizeMod > wordBytes
      && nameMax >= 1
      && pathMax >= 2
    }
  }

  /** Where a call that can block stands: it has returned with a code, or
      it is still blocked in the kernel (ulTaskNotifyTake, xSemaphoreTake,
      xQueueSend, xQueueReceive) and has not returned. */
  datatype Pending = Done(status: Status) | Blocked

  function Min(a: int, b: int): int {
    if a <= b then a else b
  }

  /** The first `n` characters of `s` (all of `s` when it is shorter): what
      strncpy into an n+1-byte buffer followed by an explicit terminator keeps. */
  function Prefix(s: string, n: nat): (r: string)
    ensures |r| == Min(|s|, n)
    ensures r <= s
  {
    if |s| <= n then s else s[..n]
  }

  /** Integer division by a positive divisor never increases a natural. */
  lemma DivAtMost(x: nat, k: nat)
    requires k > 0
    ensures x / k <= x
  {
    var q := x / k;
    assert x == q * k + x % k;
    if q > 0 {
      MulMono(q, k);
      assert q * k >= q by { MulMono(k, q); }
    }
  }

  /** A positive factor does not shrink a natural. */
  lemma MulMono(n: nat, k: nat)
    requires n >= 1
    ensures n * k >= k
  {
  }
}

=== FILE: enumeration.dfy ===
/** thread_enumerate, behind _thread_get_all and _thread_get_by_process: a
    walk over the kernel's task snapshot that keeps each task whose TLS slot
    holds a record (of the given process, when one is given), writing the
    first matches into the caller's array up to its capacity. */
module Enumeration {
  import opened Base
  import opened Kernel
  import Threads

  /** Every record named by a slot has a known owning process. */
  predicate Owned(slots: seq<Option<ThreadRef>>, owner: map<ThreadRef, Option<ProcRef>>) {
    forall i | 0 <= i < |slots| && slots[i].Some? :: slots[i].value in owner
  }

  /** The loop's two `continue` tests, negated. */
  predicate Selected(slot: Option<ThreadRef>, owner: map<ThreadRef, Option<ProcRef>>, filter: Option<ProcRef>)
    requires slot.Some? ==> slot.value in owner
  {
    slot.Some? && (filter.None? || owner[slot.value] == filter)
  }

  /** The reference: the selected records, in snapshot order. */
  function Matches(slots: seq<Option<ThreadRef>>, owner: map<ThreadRef, Option<ProcRef>>, filter: Option<ProcRef>): (m: seq<ThreadRef>)
    requires Owned(slots, owner)
    ensures |m| <= |slots|
    ensures forall x | x in m :: Some(x) in slots && x in owner && (filter.None? || owner[x] == filter)
  {
    if |slots| == 0 then []
    else
      var init := slots[..|slots| - 1];
      var last := slots[|slots| - 1];
      assert forall x | Some(x) in init :: Some(x) in slots;
      Matches(init, owner, filter) + (if Selected(last, owner, filter) then [last.value] else [])
  }

  /** Every selected slot contributes its record. */
  lemma {:induction false} MatchesComplete(slots: seq<Option<ThreadRef>>, owner: map<ThreadRef, Option<ProcRef>>, filter: Option<ProcRef>, i: nat)
    requires Owned(slots, owner)
    requires i < |slots| && Selected(slots[i], owner, filter)
    ensures slots[i].value in Matches(slots, owner, filter)
  {
    if i < |slots| - 1 {
      var init := slots[..|slots| - 1];
      assert init[i] == slots[i];
      MatchesComplete(init, owner, filter, i);
    }
  }

  predicate Distinct<T(==)>(xs: seq<T>) {
    forall i, j | 0 <= i < j < |xs| :: xs[i] != xs[j]
  }

  /** Distinct slots give distinct matches. */
  lemma {:induction false} MatchesDistinct(slots: seq<Option<ThreadRef>>, owner: map<ThreadRef, Option<ProcRef>>, filter: Option<ProcRef>)
    requires Owned(slots, owner)
    requires forall i, j | 0 <= i < j < |slots| && slots[i].Some? :: slots[i] != slots[j]
    ensures Distinct(Matches(slots, owner, filter))
  {
    if |slots| > 0 {
      var init := slots[..|slots| - 1];
      var last := slots[|slots| - 1];
      MatchesDistinct(init, owner, filter);
      var m0 := Matches(init, owner, filter);
      if !Selected(last, owner, filter) {
        assert Matches(slots, owner, filter) == m0;
      } else {
        forall x | x in m0 ensures x != last.value {
          assert Some(x) in init;
          var k :| 0 <= k < |init| && init[k] == Some(x);
          assert slots[k] == Some(x);
        }
        var m := Matches(slots, owner, filter);
        assert m == m0 + [last.value];
        forall i, j | 0 <= i < j < |m| ensures m[i] != m[j] {
          assert m[i] == m0[i];
          if j == |m| - 1 {
            assert m[i] in m0;
          } else {
            assert m[j] == m0[j];
          }
        }
      }
    }
  }

  /** thread_enumerate. `wantOut` is `threads != NULL`; `allocOk` is the
      outcome of the snapshot allocation. Returns the count and the handles
      written. */
  method Enumerate(slots: seq<Option<ThreadRef>>, owner: map<ThreadRef, Option<ProcRef>>, filter: Option<ProcRef>,
                   wantOut: bool, maxCount: nat, allocOk: bool) returns (n: nat, out: seq<ThreadRef>)
    requires Owned(slots, owner)
    ensures !allocOk ==> n == 0 && out == []
    ensures allocOk && !wantOut ==> n == |Matches(slots, owner, filter)| && out == []
    ensures allocOk && wantOut ==>
      && n == Min(|Matches(slots, owner, filter)|, maxCount)
      && out == Matches(slots, owner, filter)[..n]
  {
    if !allocOk {
      return 0, [];
    }
    var count: nat := 0;
    out := [];
    ghost var m: seq<ThreadRef> := [];
    for i := 0 to |slots|
      invariant Owned(slots[..i], owner)
      invariant m == Matches(slots[..i], owner, filter)
      invariant count == |m|
      invariant wantOut ==> out == m[..Min(count, maxCount)]
      invariant !wantOut ==> out == []
    {
      MatchesStep(slots, owner, filter, i);
      var t := slots[i];
      if t.Some? && (filter.None? || owner[t.value] == filter) {
        TakeStep(m, t.value, maxCount);
        if wantOut && count < maxCount {
          out := out + [t.value];
        }
        count := count + 1;
        m := m + [t.value];
      }
    }
    assert slots[..|slots|] == slots;
    if wantOut && count > maxCount {
      return maxCount, out;
    }
    return count, out;
  }

  /** Matching one more slot appends that slot's record when it is
      selected. */
  lemma MatchesStep(slots: seq<Option<ThreadRef>>, owner: map<ThreadRef, Option<ProcRef>>, filter: Option<ProcRef>, i: nat)
    requires Owned(slots, owner) && i < |slots|
    ensures Owned(slots[..i + 1], owner) && Owned(slots[..i], owner)
    ensures Matches(slots[..i + 1], owner, filter)
      == Matches(slots[..i], owner, filter) + (if Selected(slots[i], owner, filter) then [slots[i].value] else [])
  {
    assert slots[..i + 1][..i] == slots[..i];
  }

  /** The first `k` elements of a sequence grow by the new element only
      while fewer than `k` are kept. */
  lemma TakeStep<T>(m: seq<T>, x: T, k: nat)
    ensures |m| < k ==> (m + [x])[..Min(|m| + 1, k)] == m[..Min(|m|, k)] + [x]
    ensures |m| >= k ==> (m + [x])[..Min(|m| + 1, k)] == m[..Min(|m|, k)]
  {
    if |m| < k {
      assert (m + [x])[..|m| + 1] == m + [x];
      assert m[..|m|] == m;
    } else {
      assert (m + [x])[..k] == m[..k];
    }
  }

  /** The snapshot the loop walks: the TLS slot of each task that
      uxTaskGetSystemState reported, in its order. */
  function Slots(s: Sys, order: seq<TaskId>): (slots: seq<Option<ThreadRef>>)
    requires forall i | 0 <= i < |order| :: order[i] in s.tasks
    ensures |slots| == |order|
    ensures forall i | 0 <= i < |order| :: slots[i] == s.tasks[order[i]].tls
  {
    seq(|order|, i requires 0 <= i < |order| => s.tasks[order[i]].tls)
  }

  /** The owning process of every record. */
  function Owners(s: Sys): (owner: map<ThreadRef, Option<ProcRef>>)
    ensures owner.Keys == s.threads.Keys
    ensures forall r | r in s.threads :: owner[r] == s.threads[r].process
  {
    map r | r in s.threads :: s.threads[r].process
  }

  /** A snapshot lists known tasks, each once: live ones, and ones that
      deleted themselves and that the idle task has not freed yet. */
  predicate Snapshot(s: Sys, order: seq<TaskId>) {
    && (forall i | 0 <= i < |order| :: order[i] in s.tasks && (s.tasks[order[i]].alive || s.tasks[order[i]].reaping))
    && (forall i, j | 0 <= i < j < |order| :: order[i] != order[j])
  }

  /** On a valid state a snapshot's slots all name records, and no record is
      named twice, so the handles enumerated are distinct. */
  lemma SnapshotEnumeratesDistinct(s: Sys, order: seq<TaskId>, filter: Option<ProcRef>)
    requires Valid(s) && Snapshot(s, order)
    ensures Owned(Slots(s, order), Owners(s))
    ensures Distinct(Matches(Slots(s, order), Owners(s), filter))
  {
    var slots := Slots(s, order);
    forall i, j | 0 <= i < j < |slots| && slots[i].Some? ensures slots[i] != slots[j] {
      assert s.tasks[order[i]].alive;
      assert s.threads[slots[i].value].handle == Some(order[i]);
    }
    MatchesDistinct(slots, Owners(s), filter);
  }

  /** A registered caller that appears in the snapshot is always counted:
      by a process filter naming its record's process, and with no filter. */
  lemma RegisteredCallerCounted(s: Sys, order: seq<TaskId>, k: nat, filter: Option<ProcRef>)
    requires Valid(s) && Snapshot(s, order)
    requires k < |order| && s.tasks[order[k]].tls.Some?
    requires filter.None? || filter == s.threads[s.tasks[order[k]].tls.value].process
    ensures |Matches(Slots(s, order), Owners(s), filter)| >= 1
  {
    SnapshotEnumeratesDistinct(s, order, filter);
    MatchesComplete(Slots(s, order), Owners(s), filter, k);
  }

  /** A listed self-deleted task whose slot still names a record is
      enumerated as that record; once the record is freed the slot names
      nothing known. */
  lemma {:induction false} StaleSlotEnumerated(k: Sys, t: TaskId, th: ThreadRef)
    requires t in k.tasks && k.tasks[t].reaping && k.tasks[t].tls == Some(th) && th in k.threads
    ensures Snapshot(k, [t]) && Owned(Slots(k, [t]), Owners(k))
    ensures Matches(Slots(k, [t]), Owners(k), None) == [th]
    ensures Snapshot(FreeThread(k, th), [t]) && !Owned(Slots(FreeThread(k, th), [t]), Owners(FreeThread(k, th)))
  {
    assert Slots(k, [t]) == [Some(th)];
    assert Matches(Slots(k, [t]), Owners(k), None) == Matches([], Owners(k), None) + [th];
    assert Slots(FreeThread(k, th), [t])[0] == Some(th);
  }

  /** A listed task whose slot is empty is enumerated as nothing. */
  lemma {:induction false} EmptySlotSkipped(d: Sys, t: TaskId)
    requires t in d.tasks && d.tasks[t].reaping && d.tasks[t].tls.None?
    ensures Snapshot(d, [t]) && Slots(d, [t]) == [None] && Owned(Slots(d, [t]), Owners(d))
    ensures Matches(Slots(d, [t]), Owners(d), None) == []
  {
    assert Slots(d, [t]) == [None];
    assert Matches(Slots(d, [t]), Owners(d), None) == Matches([], Owners(d), None);
  }

  /** The scenario both self-kill lemmas start from: a running task creates
      a thread with a valid entry and its wrapper starts, storing the record
      in its own TLS slot. The result is the state, the record and the new
      thread's task. */
  function Spawned(s: Sys, cfg: Config, caller: TaskId): (r: (Sys, ThreadRef, TaskId))
    requires cfg.Ok() && Valid(s) && Executing(s, caller)
    ensures var c := Threads.Create(s, cfg, true, 4096, true, None, Some(caller), true, true);
      && c.v == Some(r.1) && r.2 == s.nextTask && r.0 == Threads.WrapperStart(c.s, r.2)
    ensures var (w, th, t) := r;
      && Valid(w) && th in w.threads && t in w.tasks && caller != t
      && w.tasks[t].tls == Some(th) && w.threads[th].handle == Some(t)
      && Executing(w, t) && Executing(w, caller)
      && Threads.KillTarget(w.threads[th]) == Some(t)
  {
    var c := Threads.Create(s, cfg, true, 4096, true, None, Some(caller), true, true);
    var t := s.nextTask;
    var w := Threads.WrapperStart(c.s, t);
    assert w.tasks[t].tls == Some(c.v.value) && w.threads[c.v.value].handle == Some(t) && Executing(w, t) && caller != t;
    (w, c.v.value, t)
  }

  /** Finding: a thread that kills itself as written deletes itself with its
      TLS slot still naming its record. Until the idle task frees that task,
      the kernel's snapshot still lists it, so enumeration returns the killed
      thread; once the completed record is destroyed, which touches no task,
      the listed slot names a freed record and the process filter reads it. */
  lemma SelfKillAsWrittenLeavesStaleSlot(s: Sys, cfg: Config, caller: TaskId)
    requires cfg.Ok() && Valid(s) && Executing(s, caller)
    ensures
      var (w, th, t) := Spawned(s, cfg, caller);
      var k := Threads.KillStateAsWritten(w, th, Some(t));
      && !Alive(k, t)
      && k.threads[th].completed
      && Snapshot(k, [t])
      && Matches(Slots(k, [t]), Owners(k), None) == [th]
      && Snapshot(FreeThread(k, th), [t])
      && !Owned(Slots(FreeThread(k, th), [t]), Owners(FreeThread(k, th)))
  {
    var (w, th, t) := Spawned(s, cfg, caller);
    var k := Threads.KillStateAsWritten(w, th, Some(t));
    StaleSlotEnumerated(k, t, th);
  }

  /** The corrected kill clears the caller's slot before it deletes itself:
      the self-deleted task may still be listed, but it contributes nothing,
      before and after its record is destroyed. */
  lemma SelfKillClearsSlot(s: Sys, cfg: Config, caller: TaskId)
    requires cfg.Ok() && Valid(s) && Executing(s, caller)
    ensures
      var (w, th, t) := Spawned(s, cfg, caller);
      var k := Threads.Kill(w, Some(th), 0, Some(t));
      && !Alive(k.s, t)
      && Snapshot(k.s, [t])
      && Slots(k.s, [t]) == [None]
      && Executing(k.s, caller)
      && var d := Threads.Destroy(k.s, Some(th), Some(caller));
      && Snapshot(d, [t])
      && Matches(Slots(d, [t]), Owners(d), None) == []
  {
    var (w, th, t) := Spawned(s, cfg, caller);
    var k := Threads.Kill(w, Some(th), 0, Some(t));
    assert k.s.tasks[t].reaping && k.s.tasks[t].tls.None?;
    assert k.s.tasks[caller].started == w.tasks[caller].started;
    EmptySlotSkipped(k.s, t);
    var d := Threads.Destroy(k.s, Some(th), Some(caller));
    assert d.tasks[t].reaping && d.tasks[t].tls.None?;
    EmptySlotSkipped(d, t);
  }
}

=== FILE: kernel.dfy ===
/** The abstract state shared by the thread and process layers: the FreeRTOS
    tasks as this layer observes them, the heap-allocated thread and process
    records, and the globals of the C files. Pointers are modelled as
    natural-number references into maps; a freed record is one no longer in
    its map. Each critical section of the C code is one step function over
    this state. */
module Kernel {
  import opened Base

  type TaskId = nat
  type ThreadRef = nat
  type ProcRef = nat

  /** One FreeRTOS task control block, as far as this layer can see it. */
  datatype Task = Task(
    alive: bool,               // not yet removed by vTaskDelete
    started: bool,             // its task function has begun running
    param: Option<ThreadRef>,  // pvParameters given to xTaskCreate
    tls: Option<ThreadRef>,    // thread-local storage slot DMOD_THREAD_TLS_INDEX
    notify: nat,               // pending task-notification count
    depth: nat,                // stack depth in StackType_t words
    reaping: bool              // deleted itself; the control block stays listed until the idle task frees it
  )

  /** struct dmosi_thread. `hasEntry` stands for `entry != NULL`; the entry
      function and its argument are not otherwise observed. */
  datatype Thread = Thread(
    handle: Option<TaskId>,
    hasEntry: bool,
    completed: bool,
    joined: bool,
    joiner: Option<TaskId>,
    process: Option<ProcRef>,
    stackSize: nat
  )

  datatype ProcState = Created | Running | Terminated | Zombie

  /** struct dmod_process. */
  datatype Process = Process(
    name: string,
    pid: nat,
    uid: nat,
    pwd: string,
    state: ProcState,
    parent: Option<ProcRef>,
    exitStatus: int,
    waiter: Option<TaskId>
  )

  /** The whole state: kernel tasks, the two record heaps with their
      allocators, and the globals g_next_pid, g_system_process and
      g_init_process. */
  datatype Sys = Sys(
    tasks: map<TaskId, Task>,
    nextTask: TaskId,
    threads: map<ThreadRef, Thread>,
    nextThread: ThreadRef,
    procs: map<ProcRef, Process>,
    nextProc: ProcRef,
    nextPid: nat,
    system: Option<ProcRef>,
    initProcess: Option<ProcRef>
  )

  /** The state after one API call, with the value the call returns. */
  datatype Out<+T> = Out(s: Sys, v: T)

  predicate Alive(s: Sys, t: TaskId) {
    t in s.tasks && s.tasks[t].alive
  }

  /** `t` can be the calling context: it exists and its code is executing. */
  predicate Executing(s: Sys, t: TaskId) {
    Alive(s, t) && s.tasks[t].started
  }

  /** A thread record that still vouches for its task being alive: it has a
      handle and either has not completed, or was registered lazily (no
      entry, "completed" from birth) and so never self-deletes. */
  predicate Claims(th: Thread) {
    th.handle.Some? && (!th.completed || !th.hasEntry)
  }

  /** Task `t` is alive and tied to record `r`: through its TLS slot once it
      runs, through its start parameter before. */
  predicate BoundTo(s: Sys, t: TaskId, r: ThreadRef) {
    && Alive(s, t)
    && (if s.tasks[t].started then s.tasks[t].tls == Some(r) else s.tasks[t].param == Some(r))
  }

  ghost predicate Fresh(s: Sys) {
    && (forall t | t in s.tasks :: t < s.nextTask)
    && (forall r | r in s.threads :: r < s.nextThread)
    && (forall r | r in s.threads && s.threads[r].handle.Some? :: s.threads[r].handle.value < s.nextTask)
    && (forall t | t in s.tasks && s.tasks[t].param.Some? :: s.tasks[t].param.value < s.nextThread)
    && (forall p | p in s.procs :: p < s.nextProc)
  }

  /** Every claiming record is bound to its live task. */
  ghost predicate ClaimsBound(s: Sys) {
    forall r | r in s.threads && Claims(s.threads[r]) :: BoundTo(s, s.threads[r].handle.value, r)
  }

  /** A live task's TLS slot names a live record that claims that task. */
  ghost predicate TlsSound(s: Sys) {
    forall t | t in s.tasks && s.tasks[t].alive && s.tasks[t].tls.Some? ::
      && s.tasks[t].tls.value in s.threads
      && s.threads[s.tasks[t].tls.value].handle == Some(t)
      && Claims(s.threads[s.tasks[t].tls.value])
  }

  /** A live API-created task whose record still exists has not completed. */
  ghost predicate ParamSound(s: Sys) {
    forall t | t in s.tasks && s.tasks[t].alive && s.tasks[t].param.Some? && s.tasks[t].param.value in s.threads ::
      && s.threads[s.tasks[t].param.value].handle == Some(t)
      && s.threads[s.tasks[t].param.value].hasEntry
      && !s.threads[s.tasks[t].param.value].completed
  }

  /** A task that has not started yet was created by the API, carries a live
      record and has an empty TLS slot. */
  ghost predicate UnstartedSound(s: Sys) {
    forall t | t in s.tasks && s.tasks[t].alive && !s.tasks[t].started ::
      && s.tasks[t].param.Some?
      && s.tasks[t].param.value in s.threads
      && s.tasks[t].tls.None?
  }

  /** A record that has a handle but no longer claims it names a task that
      has ended: together with ClaimsBound, a record's task is alive exactly
      when the record claims it. */
  ghost predicate EndedSound(s: Sys) {
    forall r | r in s.threads && s.threads[r].handle.Some? && !Claims(s.threads[r]) ::
      !Alive(s, s.threads[r].handle.value)
  }

  /** A task that deleted itself and still awaits the idle task is no
      longer alive, and its TLS slot, which uxTaskGetSystemState and
      pvTaskGetThreadLocalStoragePointer can still reach, names no record. */
  ghost predicate ReapingSound(s: Sys) {
    forall t | t in s.tasks && s.tasks[t].reaping :: !s.tasks[t].alive && s.tasks[t].tls.None?
  }

  /** The lifecycle invariant: no record can lead to a deleted task. */
  ghost predicate Valid(s: Sys) {
    && Fresh(s)
    && ClaimsBound(s)
    && EndedSound(s)
    && TlsSound(s)
    && ParamSound(s)
    && UnstartedSound(s)
    && ReapingSound(s)
  }

  /** The state before any task or record exists. */
  function Empty(): (s: Sys)
    ensures Valid(s)
  {
    Sys(map[], 0, map[], 0, map[], 0, 1, None, None)
  }

  /** At most one record claims a given task. */
  lemma ClaimsUnique(s: Sys, r1: ThreadRef, r2: ThreadRef)
    requires ClaimsBound(s)
    requires r1 in s.threads && r2 in s.threads
    requires Claims(s.threads[r1]) && Claims(s.threads[r2])
    requires s.threads[r1].handle == s.threads[r2].handle
    ensures r1 == r2
  {
    assert BoundTo(s, s.threads[r1].handle.value, r1);
    assert BoundTo(s, s.threads[r2].handle.value, r2);
  }

  /** vTaskDelete of another task: only a task that still exists may be
      deleted, and its control block is freed at once, so no snapshot lists
      it again. */
  function DeleteTask(s: Sys, t: TaskId): (s': Sys)
    requires Alive(s, t)
    ensures !Alive(s', t) && s'.tasks.Keys == s.tasks.Keys
    ensures forall u | u != t :: Alive(s', u) == Alive(s, u)
    ensures s'.tasks[t].tls == s.tasks[t].tls && s'.tasks[t].reaping == s.tasks[t].reaping
  {
    s.(tasks := s.tasks[t := s.tasks[t].(alive := false)])
  }

  /** vTaskDelete(NULL): the calling task deletes itself. Its control block,
      TLS slot included, stays listed by uxTaskGetSystemState until the idle
      task frees it. */
  function DeleteSelf(s: Sys, t: TaskId): (s': Sys)
    requires Alive(s, t)
    ensures s'.tasks.Keys == s.tasks.Keys && !Alive(s', t) && s'.tasks[t].reaping
    ensures forall u | u != t :: Alive(s', u) == Alive(s, u)
    ensures s'.tasks[t].tls == s.tasks[t].tls
  {
    s.(tasks := s.tasks[t := s.tasks[t].(alive := false, reaping := true)])
  }

  /** xTaskNotifyGive: raises the task's notification count. A task that no
      longer exists is left alone. */
  function NotifyGive(s: Sys, t: TaskId): (s': Sys)
    ensures s'.tasks.Keys == s.tasks.Keys
    ensures Alive(s, t) ==> s'.tasks[t] == s.tasks[t].(notify := s.tasks[t].notify + 1)
    ensures forall u | u in s.tasks && (u != t || !Alive(s, t)) :: s'.tasks[u] == s.tasks[u]
    ensures s' == s.(tasks := s'.tasks)
  {
    if Alive(s, t) then s.(tasks := s.tasks[t := s.tasks[t].(notify := s.tasks[t].notify + 1)])
    else s
  }

  /** Notify the captured waiter, if any. */
  function NotifyIfAny(s: Sys, w: Option<TaskId>): (s': Sys)
    ensures s'.tasks.Keys == s.tasks.Keys
    ensures w.Some? && Alive(s, w.value) ==> s'.tasks[w.value] == s.tasks[w.value].(notify := s.tasks[w.value].notify + 1)
    ensures forall u | u in s.tasks && (w.None? || u != w.value || !Alive(s, u)) :: s'.tasks[u] == s.tasks[u]
    ensures s' == s.(tasks := s'.tasks)
  {
    if w.Some? then NotifyGive(s, w.value) else s
  }

  function SetTls(s: Sys, t: TaskId, v: Option<ThreadRef>): Sys
    requires t in s.tasks
  {
    s.(tasks := s.tasks[t := s.tasks[t].(tls := v)])
  }

  function PutThread(s: Sys, r: ThreadRef, th: Thread): Sys {
    s.(threads := s.threads[r := th])
  }

  function FreeThread(s: Sys, r: ThreadRef): Sys {
    s.(threads := s.threads - {r})
  }

  /** pvTaskGetThreadLocalStoragePointer of the calling context (NULL when
      there is none). */
  function CurrentTls(s: Sys, caller: Option<TaskId>): Option<ThreadRef> {
    if caller.Some? && caller.value in s.tasks then s.tasks[caller.value].tls else None
  }

  /** Rewriting the fields of a record that do not bear on its lifecycle
      (joined, joiner, process) keeps the invariant. */
  lemma SameLifecyclePreservesValid(s: Sys, r: ThreadRef, th: Thread)
    requires Valid(s) && r in s.threads
    requires th.handle == s.threads[r].handle
    requires th.hasEntry == s.threads[r].hasEntry
    requires th.completed == s.threads[r].completed
    ensures Valid(PutThread(s, r, th))
  {
    var s' := PutThread(s, r, th);
    assert forall x | x in s'.threads :: x in s.threads && Claims(s'.threads[x]) == Claims(s.threads[x]);
    assert ClaimsBound(s') by {
      forall x | x in s'.threads && Claims(s'.threads[x]) ensures BoundTo(s', s'.threads[x].handle.value, x) {
        assert BoundTo(s, s.threads[x].handle.value, x);
      }
    }
  }

  /** Notification bookkeeping leaves every part of the invariant alone. */
  lemma NotifyPreservesValid(s: Sys, w: Option<TaskId>)
    requires Valid(s)
    ensures Valid(NotifyIfAny(s, w))
  {
    NotifyCountsPreserveValid(s, NotifyIfAny(s, w));
  }

  /** Taking a task's pending notifications keeps the invariant. */
  lemma NotifyTakePreservesValid(s: Sys, t: TaskId)
    requires Valid(s) && t in s.tasks
    ensures Valid(s.(tasks := s.tasks[t := s.tasks[t].(notify := 0)]))
  {
    NotifyCountsPreserveValid(s, s.(tasks := s.tasks[t := s.tasks[t].(notify := 0)]));
  }

  /** Any change confined to notification counts keeps the invariant. */
  lemma NotifyCountsPreserveValid(s: Sys, s': Sys)
    requires Valid(s)
    requires s' == s.(tasks := s'.tasks)
    requires s'.tasks.Keys == s.tasks.Keys
    requires forall t | t in s.tasks :: s'.tasks[t] == s.tasks[t].(notify := s'.tasks[t].notify)
    ensures Valid(s')
  {
    assert ClaimsBound(s') by {
      forall x | x in s'.threads && Claims(s'.threads[x]) ensures BoundTo(s', s'.threads[x].handle.value, x) {
        assert BoundTo(s, s.threads[x].handle.value, x);
      }
    }
  }
}

=== FILE: processes.dfy ===
/** The process overlay of dmosi_process.c: FreeRTOS has no processes, so a
    process is a heap record carrying a name, an id, a user id, a working
    directory, a lifecycle state and one waiter slot. The only process the
    backend tracks globally is the system process. */
module Processes {
  import opened Base
  import opened Kernel
  import Ticks

  /** The contents of the name buffer after process_new: the first
      nameMax - 1 characters of the given name, or the empty string for a
      NULL name. */
  function StoredName(cfg: Config, name: Option<string>): (r: string)
    requires cfg.Ok()
    ensures name.None? ==> r == ""
    ensures name.Some? ==> r <= name.value && |r| == Min(|name.value|, cfg.nameMax - 1)
    ensures |r| < cfg.nameMax
  {
    if name.Some? then Prefix(name.value, cfg.nameMax - 1) else ""
  }

  /** process_new: allocates a record, takes the next pid, and starts it in
      state CREATED with uid 0, working directory "/", exit status 0 and no
      waiter. An allocation failure returns NULL and consumes no pid. */
  function ProcessNew(s: Sys, cfg: Config, name: Option<string>, parent: Option<ProcRef>, allocOk: bool): (r: Out<Option<ProcRef>>)
    requires cfg.Ok() && Valid(s)
    ensures !allocOk ==> r == Out(s, None)
    ensures allocOk ==>
      && r.v == Some(s.nextProc)
      && s.nextProc !in s.procs
      && r.s.procs.Keys == s.procs.Keys + {s.nextProc}
      && (forall q | q in s.procs :: r.s.procs[q] == s.procs[q])
      && r.s.procs[s.nextProc] == Process(StoredName(cfg, name), s.nextPid, 0, "/", Created, parent, 0, None)
      && r.s.nextPid == s.nextPid + 1
      && r.s.tasks == s.tasks && r.s.threads == s.threads
      && r.s.system == s.system && r.s.initProcess == s.initProcess
      && Valid(r.s)
  {
    if !allocOk then Out(s, None)
    else
      var p := s.nextProc;
      var rec := Process(StoredName(cfg, name), s.nextPid, 0, "/", Created, parent, 0, None);
      Out(s.(procs := s.procs[p := rec], nextProc := p + 1, nextPid := s.nextPid + 1), Some(p))
  }

  /** Two successive creations get distinct, increasing pids. */
  lemma SuccessivePidsIncrease(s: Sys, cfg: Config, n1: Option<string>, n2: Option<string>, par1: Option<ProcRef>, par2: Option<ProcRef>)
    requires cfg.Ok() && Valid(s)
    ensures
      var a := ProcessNew(s, cfg, n1, par1, true);
      var b := ProcessNew(a.s, cfg, n2, par2, true);
      && a.v.Some? && b.v.Some? && a.v != b.v
      && a.s.procs[a.v.value].pid < b.s.procs[b.v.value].pid
      && b.s.procs[a.v.value].pid == a.s.procs[a.v.value].pid
  {
  }

  /** The system process is live whenever it is set. */
  predicate SystemLive(s: Sys) {
    s.system.Some? ==> s.system.value in s.procs
  }

  /** dmosi_freertos_process_init: creates the system process in state
      RUNNING, unless it already exists. */
  function ProcessInit(s: Sys, cfg: Config, allocOk: bool): (r: Sys)
    requires cfg.Ok() && Valid(s)
    ensures s.system.Some? ==> r == s
    ensures s.system.None? && !allocOk ==> r == s
    ensures s.system.None? && allocOk ==>
      && r.system == Some(s.nextProc)
      && s.nextProc !in s.procs
      && r.procs.Keys == s.procs.Keys + {s.nextProc}
      && (forall q | q in s.procs :: r.procs[q] == s.procs[q])
      && r.procs[s.nextProc] == Process(StoredName(cfg, Some(cfg.systemName)), s.nextPid, 0, "/", Running, None, 0, None)
      && r.nextPid == s.nextPid + 1
      && r.nextProc == s.nextProc + 1
      && r.tasks == s.tasks && r.threads == s.threads && r.initProcess == s.initProcess
      && r.nextTask == s.nextTask && r.nextThread == s.nextThread
    ensures Valid(r)
    ensures SystemLive(s) ==> SystemLive(r)
  {
    if s.system.Some? then s
    else
      var o := ProcessNew(s, cfg, Some(cfg.systemName), None, allocOk);
      if o.v.None? then s
      else
        var p := o.v.value;
        o.s.(procs := o.s.procs[p := o.s.procs[p].(state := Running)], system := Some(p))
  }

  /** A second init changes nothing. */
  lemma ProcessInitIdempotent(s: Sys, cfg: Config, ok1: bool, ok2: bool)
    requires cfg.Ok() && Valid(s)
    ensures ProcessInit(ProcessInit(s, cfg, ok1), cfg, ok2) == ProcessInit(s, cfg, ok1) || ProcessInit(s, cfg, ok1) == s
  {
  }

  /** dmosi_freertos_process_deinit: frees the system process and clears the
      global; a no-op when there is none. */
  function ProcessDeinit(s: Sys): (r: Sys)
    requires SystemLive(s)
    ensures r.system.None?
    ensures s.system.None? ==> r == s
    ensures s.system.Some? ==> r.procs == s.procs - {s.system.value}
    ensures r.tasks == s.tasks && r.threads == s.threads && r.nextPid == s.nextPid
    ensures r == s.(procs := r.procs, system := None)
    ensures Valid(s) ==> Valid(r)
  {
    if s.system.Some? then s.(procs := s.procs - {s.system.value}, system := None) else s
  }

  /** Init after a fresh start, then deinit, leaves the records as they were:
      only the pid counter has moved on. */
  lemma InitThenDeinitFreesSystemProcess(s: Sys, cfg: Config)
    requires cfg.Ok() && Valid(s) && s.system.None?
    ensures
      var r := ProcessDeinit(ProcessInit(s, cfg, true));
      && r.procs == s.procs && r.system.None? && r.nextPid == s.nextPid + 1
  {
    var i := ProcessInit(s, cfg, true);
    assert i.procs - {s.nextProc} == s.procs;
  }

  /** _process_destroy: NULL is ignored, anything else is freed. */
  function ProcessDestroy(s: Sys, p: Option<ProcRef>): (r: Sys)
    requires p.Some? ==> p.value in s.procs
    ensures p.None? ==> r == s
    ensures p.Some? ==> r.procs == s.procs - {p.value} && r.tasks == s.tasks && r.threads == s.threads
    ensures r == s.(procs := r.procs)
    ensures Valid(s) ==> Valid(r)
  {
    if p.None? then s else s.(procs := s.procs - {p.value})
  }

  /** _process_kill: records the exit status, moves the process to
      TERMINATED and notifies the waiter, if any. */
  function ProcessKill(s: Sys, p: Option<ProcRef>, status: int): (r: Out<Status>)
    requires p.Some? ==> p.value in s.procs
    ensures p.None? ==> r == Out(s, Einval)
    ensures p.Some? ==>
      && r.v == Success
      && p.value in r.s.procs
      && r.s.procs[p.value] == s.procs[p.value].(exitStatus := status, state := Terminated)
      && r.s.procs.Keys == s.procs.Keys
      && r.s.threads == s.threads
      && r.s.tasks.Keys == s.tasks.Keys
      && (forall q | q in s.procs && q != p.value :: r.s.procs[q] == s.procs[q])
      && (s.procs[p.value].waiter.Some? && Alive(s, s.procs[p.value].waiter.value) ==>
            r.s.tasks[s.procs[p.value].waiter.value].notify == s.tasks[s.procs[p.value].waiter.value].notify + 1)
    ensures p.Some? ==> r.s == s.(procs := r.s.procs, tasks := r.s.tasks)
    ensures p.Some? ==> forall u | u in s.tasks && Some(u) != s.procs[p.value].waiter :: r.s.tasks[u] == s.tasks[u]
    ensures Valid(s) ==> Valid(r.s)
  {
    if p.None? then Out(s, Einval)
    else
      var q := p.value;
      var w := s.procs[q].waiter;
      var s1 := s.(procs := s.procs[q := s.procs[q].(exitStatus := status, state := Terminated)]);
      RecordUpdatePreservesValid(s, q, s1.procs[q], w);
      Out(NotifyIfAny(s1, w), Success)
  }

  /** Rewriting an existing process record and notifying its waiter keeps
      the lifecycle invariant: no part of it depends on process records. */
  lemma RecordUpdatePreservesValid(s: Sys, q: ProcRef, rec: Process, w: Option<TaskId>)
    requires q in s.procs
    ensures Valid(s) ==> Valid(NotifyIfAny(s.(procs := s.procs[q := rec]), w))
  {
    if Valid(s) {
      var s1 := s.(procs := s.procs[q := rec]);
      assert ClaimsBound(s1) by {
        forall x | x in s1.threads && Claims(s1.threads[x]) ensures BoundTo(s1, s1.threads[x].handle.value, x) {
          assert BoundTo(s, s.threads[x].handle.value, x);
        }
      }
      NotifyPreservesValid(s1, w);
    }
  }

  predicate Finished(st: ProcState) {
    st == Terminated || st == Zombie
  }

  /** First half of _process_wait, the critical section: NULL is rejected,
      a finished process returns 0 at once without registering a waiter, a
      second waiter is refused, otherwise the caller becomes the waiter and
      blocks. */
  function WaitStart(s: Sys, p: Option<ProcRef>, caller: TaskId): (r: Out<Pending>)
    requires p.Some? ==> p.value in s.procs
    ensures p.None? ==> r == Out(s, Done(Einval))
    ensures p.Some? && Finished(s.procs[p.value].state) ==> r == Out(s, Done(Success))
    ensures p.Some? && !Finished(s.procs[p.value].state) && s.procs[p.value].waiter.Some? ==> r == Out(s, Done(Ebusy))
    ensures p.Some? && !Finished(s.procs[p.value].state) && s.procs[p.value].waiter.None? ==>
      && r.v == Blocked
      && r.s == s.(procs := s.procs[p.value := s.procs[p.value].(waiter := Some(caller))])
  {
    if p.None? then Out(s, Done(Einval))
    else
      var q := p.value;
      if Finished(s.procs[q].state) then Out(s, Done(Success))
      else if s.procs[q].waiter.Some? then Out(s, Done(Ebusy))
      else Out(s.(procs := s.procs[q := s.procs[q].(waiter := Some(caller))]), Blocked)
  }

  /** Second half of _process_wait: the blocked ulTaskNotifyTake(pdTRUE,
      ticks) returns. A pending notification is consumed and the call
      returns 0; with none pending the take times out once `elapsed` (at
      once for a zero-tick wait), the waiter slot is cleared and the code
      depends on whether the millisecond timeout was 0. An unbounded wait
      with nothing pending stays blocked. */
  function WaitResume(s: Sys, hz: nat, p: ProcRef, caller: TaskId, timeoutMs: int, elapsed: bool): (r: Out<Pending>)
    requires hz > 0
    requires p in s.procs && caller in s.tasks
    ensures s.tasks[caller].notify > 0 ==>
      r.v == Done(Success) && r.s == s.(tasks := s.tasks[caller := s.tasks[caller].(notify := 0)])
    ensures s.tasks[caller].notify == 0 && (timeoutMs == 0 || (timeoutMs > 0 && (elapsed || timeoutMs * hz < 1000))) ==>
      && r.v == Done(Ticks.ProcessTimeoutStatus(timeoutMs))
      && r.s == s.(procs := s.procs[p := s.procs[p].(waiter := None)])
    ensures s.tasks[caller].notify == 0 && timeoutMs < 0 ==> r == Out(s, Blocked)
    ensures s.tasks[caller].notify == 0 && timeoutMs > 0 && timeoutMs * hz >= 1000 && !elapsed ==> r == Out(s, Blocked)
    ensures r.v == Blocked ==> r.s == s
  {
    var d := Ticks.TimeoutDelay(timeoutMs, hz);
    if s.tasks[caller].notify > 0 then
      Out(s.(tasks := s.tasks[caller := s.tasks[caller].(notify := 0)]), Done(Success))
    else if d.Ticks? && (d.n == 0 || elapsed) then
      Out(s.(procs := s.procs[p := s.procs[p].(waiter := None)]), Done(Ticks.ProcessTimeoutStatus(timeoutMs)))
    else
      Out(s, Blocked)
  }

  /** A non-blocking wait on a running process with a free waiter slot and
      nothing pending returns "would block" and leaves the slot free. */
  lemma NonBlockingWaitWouldBlock(s: Sys, hz: nat, p: ProcRef, caller: TaskId)
    requires hz > 0
    requires p in s.procs && caller in s.tasks
    requires !Finished(s.procs[p].state) && s.procs[p].waiter.None?
    requires s.tasks[caller].notify == 0
    ensures
      var a := WaitStart(s, Some(p), caller);
      && a.v == Blocked
      && var b := WaitResume(a.s, hz, p, caller, 0, false);
      && b.v == Done(Eagain) && b.s.procs[p].waiter.None?
  {
  }

  /** Kill wakes a blocked waiter: after the kill, resuming the wait returns
      0, and a later wait returns 0 at once. */
  lemma KillWakesWaiter(s: Sys, hz: nat, p: ProcRef, caller: TaskId, timeoutMs: int, elapsed: bool, status: int)
    requires hz > 0
    requires p in s.procs && Alive(s, caller)
    requires !Finished(s.procs[p].state) && s.procs[p].waiter.None?
    ensures
      var a := WaitStart(s, Some(p), caller);
      var k := ProcessKill(a.s, Some(p), status);
      var b := WaitResume(k.s, hz, p, caller, timeoutMs, elapsed);
      && a.v == Blocked && k.v == Success && b.v == Done(Success)
      && b.s.procs[p].exitStatus == status
      && WaitStart(b.s, Some(p), caller).v == Done(Success)
  {
    var a := WaitStart(s, Some(p), caller);
    assert a.s.procs[p].waiter == Some(caller);
    var k := ProcessKill(a.s, Some(p), status);
    assert k.s.tasks[caller].notify > 0;
  }

  /** _process_current: the process in the caller's thread record when there
      is one, the system process otherwise. */
  function ProcessCurrent(s: Sys, caller: Option<TaskId>): (r: Option<ProcRef>)
    requires Valid(s)
    ensures
      var tl := CurrentTls(s, caller);
      && (caller.Some? && Alive(s, caller.value) && tl.Some? && s.threads[tl.value].process.Some? ==> r == s.threads[tl.value].process)
      && (caller.Some? && Alive(s, caller.value) && tl.Some? && s.threads[tl.value].process.None? ==> r == s.system)
      && (tl.None? ==> r == s.system)
    ensures r.Some? ==> r == s.system || exists t :: t in s.threads && s.threads[t].process == r
  {
    var tl := CurrentTls(s, caller);
    if caller.Some? && Alive(s, caller.value) && tl.Some? && s.threads[tl.value].process.Some? then
      s.threads[tl.value].process
    else
      s.system
  }

  /** _process_set_current: rejects a NULL process, a NULL current task and a
      task without a thread record; otherwise rebinds the record's process. */
  function SetCurrent(s: Sys, p: Option<ProcRef>, caller: Option<TaskId>): (r: Out<Status>)
    requires Valid(s)
    requires caller.Some? ==> Alive(s, caller.value)
    ensures p.None? || caller.None? || CurrentTls(s, caller).None? ==> r == Out(s, Einval)
    ensures r.v == Success ==> Valid(r.s) && ProcessCurrent(r.s, caller) == p
    ensures r.v == Success <==> p.Some? && caller.Some? && CurrentTls(s, caller).Some?
    ensures r.v == Success ==>
      var tl := CurrentTls(s, caller).value;
      && r.s == s.(threads := r.s.threads)
      && r.s.threads.Keys == s.threads.Keys
      && r.s.threads[tl].process == p
      && r.s.threads[tl].(process := None) == s.threads[tl].(process := None)
      && (forall t | t in s.threads && t != tl :: r.s.threads[t] == s.threads[t])
  {
    if p.None? || caller.None? then Out(s, Einval)
    else
      var tl := CurrentTls(s, caller);
      if tl.None? then Out(s, Einval)
      else
        var r := tl.value;
        SameLifecyclePreservesValid(s, r, s.threads[r].(process := p));
        Out(PutThread(s, r, s.threads[r].(process := p)), Success)
  }

  /** _process_get_state: NULL reads as TERMINATED. */
  function GetState(s: Sys, p: Option<ProcRef>): (r: ProcState)
    requires p.Some? ==> p.value in s.procs
    ensures p.None? ==> r == Terminated
  {
    if p.None? then Terminated else s.procs[p.value].state
  }

  /** _process_get_id: NULL reads as pid 0. */
  function GetId(s: Sys, p: Option<ProcRef>): (r: nat)
    requires p.Some? ==> p.value in s.procs
    ensures p.None? ==> r == 0
  {
    if p.None? then 0 else s.procs[p.value].pid
  }

  /** _process_set_id: NULL gives EINVAL; otherwise the pid of that record,
      and nothing else, changes. */
  function SetId(s: Sys, p: Option<ProcRef>, pid: nat): (r: Out<Status>)
    requires p.Some? ==> p.value in s.procs
    ensures p.None? ==> r == Out(s, Einval)
    ensures p.Some? ==> r.v == Success && r.s.procs.Keys == s.procs.Keys && r.s == s.(procs := r.s.procs)
    ensures p.Some? ==> r.s.procs[p.value].pid == pid && r.s.procs[p.value].(pid := 0) == s.procs[p.value].(pid := 0)
    ensures forall q | q in s.procs && Some(q) != p :: r.s.procs[q] == s.procs[q]
  {
    if p.None? then Out(s, Einval) else Out(s.(procs := s.procs[p.value := s.procs[p.value].(pid := pid)]), Success)
  }

  /** _process_get_name: NULL reads as NULL. */
  function GetName(s: Sys, p: Option<ProcRef>): (r: Option<string>)
    requires p.Some? ==> p.value in s.procs
    ensures p.None? ==> r.None?
  {
    if p.None? then None else Some(s.procs[p.value].name)
  }

  /** _process_set_uid: NULL gives EINVAL; otherwise the uid of that record,
      and nothing else, changes. */
  function SetUid(s: Sys, p: Option<ProcRef>, uid: nat): (r: Out<Status>)
    requires p.Some? ==> p.value in s.procs
    ensures p.None? ==> r == Out(s, Einval)
    ensures p.Some? ==> r.v == Success && r.s.procs.Keys == s.procs.Keys && r.s == s.(procs := r.s.procs)
    ensures p.Some? ==> r.s.procs[p.value].uid == uid && r.s.procs[p.value].(uid := 0) == s.procs[p.value].(uid := 0)
    ensures forall q | q in s.procs && Some(q) != p :: r.s.procs[q] == s.procs[q]
  {
    if p.None? then Out(s, Einval) else Out(s.(procs := s.procs[p.value := s.procs[p.value].(uid := uid)]), Success)
  }

  /** _process_get_uid: NULL reads as uid 0. */
  function GetUid(s: Sys, p: Option<ProcRef>): (r: nat)
    requires p.Some? ==> p.value in s.procs
    ensures p.None? ==> r == 0
  {
    if p.None? then 0 else s.procs[p.value].uid
  }

  /** _process_set_pwd: rejects NULL arguments, keeps at most pathMax - 1
      characters of the path. */
  function SetPwd(s: Sys, cfg: Config, p: Option<ProcRef>, pwd: Option<string>): (r: Out<Status>)
    requires cfg.Ok()
    requires p.Some? ==> p.value in s.procs
    ensures p.None? || pwd.None? ==> r == Out(s, Einval)
    ensures p.Some? && pwd.Some? ==> r.v == Success && r.s.procs.Keys == s.procs.Keys && r.s == s.(procs := r.s.procs)
    ensures p.Some? && pwd.Some? ==>
      && r.s.procs[p.value].pwd <= pwd.value
      && |r.s.procs[p.value].pwd| == Min(|pwd.value|, cfg.pathMax - 1)
      && r.s.procs[p.value].(pwd := "") == s.procs[p.value].(pwd := "")
    ensures forall q | q in s.procs && Some(q) != p :: r.s.procs[q] == s.procs[q]
  {
    if p.None? || pwd.None? then Out(s, Einval)
    else Out(s.(procs := s.procs[p.value := s.procs[p.value].(pwd := Prefix(pwd.value, cfg.pathMax - 1))]), Success)
  }

  /** _process_get_pwd: NULL reads as NULL. */
  function GetPwd(s: Sys, p: Option<ProcRef>): (r: Option<string>)
    requires p.Some? ==> p.value in s.procs
    ensures p.None? ==> r.None?
  {
    if p.None? then None else Some(s.procs[p.value].pwd)
  }

  /** Each setter is read back by its getter, and touches no other field. */
  lemma {:induction false} SettersReadBack(s: Sys, cfg: Config, p: ProcRef, pid: nat, uid: nat, pwd: string)
    requires cfg.Ok() && p in s.procs
    ensures
      var a := SetId(s, Some(p), pid).s;
      GetId(a, Some(p)) == pid && GetUid(a, Some(p)) == GetUid(s, Some(p)) && GetPwd(a, Some(p)) == GetPwd(s, Some(p))
    ensures
      var b := SetUid(s, Some(p), uid).s;
      GetUid(b, Some(p)) == uid && GetId(b, Some(p)) == GetId(s, Some(p)) && GetName(b, Some(p)) == GetName(s, Some(p))
    ensures
      var c := SetPwd(s, cfg, Some(p), Some(pwd)).s;
      && GetPwd(c, Some(p)).Some?
      && GetPwd(c, Some(p)).value <= pwd
      && |GetPwd(c, Some(p)).value| == Min(|pwd|, cfg.pathMax - 1)
      && GetState(c, Some(p)) == GetState(s, Some(p))
  {
  }

  /** A fresh process reads back as the defaults of process_new. */
  lemma FreshProcessDefaults(s: Sys, cfg: Config, name: Option<string>, parent: Option<ProcRef>)
    requires cfg.Ok() && Valid(s)
    ensures
      var o := ProcessNew(s, cfg, name, parent, true);
      && o.v.Some?
      && GetUid(o.s, o.v) == 0
      && GetPwd(o.s, o.v) == Some("/")
      && GetState(o.s, o.v) == Created
      && GetName(o.s, o.v) == Some(StoredName(cfg, name))
      && GetId(o.s, o.v) == s.nextPid
  {
  }

  /** _process_find_by_name: strncmp against the system process's name over
      DMOD_MAX_MODULE_NAME_LENGTH characters; no other process is ever found. */
  function FindByName(s: Sys, cfg: Config, name: Option<string>): (r: Option<ProcRef>)
    requires cfg.Ok() && SystemLive(s)
    ensures r.None? || r == s.system
    ensures name.None? || s.system.None? ==> r.None?
  {
    if name.None? then None
    else if s.system.Some? && Prefix(s.procs[s.system.value].name, cfg.nameMax) == Prefix(name.value, cfg.nameMax) then s.system
    else None
  }

  /** Since a stored name is shorter than the compared length, the lookup by
      name finds the system process exactly when the name is its name. */
  lemma FindByNameExact(s: Sys, cfg: Config, name: string)
    requires cfg.Ok() && SystemLive(s) && s.system.Some?
    requires |s.procs[s.system.value].name| < cfg.nameMax
    ensures FindByName(s, cfg, Some(name)) == s.system <==> name == s.procs[s.system.value].name
  {
    var n := s.procs[s.system.value].name;
    if Prefix(n, cfg.nameMax) == Prefix(name, cfg.nameMax) {
      assert Prefix(n, cfg.nameMax) == n;
      assert |Prefix(name, cfg.nameMax)| == |n| < cfg.nameMax;
      assert Prefix(name, cfg.nameMax) == name;
    }
  }

  /** The system process created by init is found by its configured name
      whenever that name fits the buffer. */
  lemma SystemProcessFoundByName(s: Sys, cfg: Config)
    requires cfg.Ok() && Valid(s) && s.system.None?
    requires |cfg.systemName| < cfg.nameMax
    ensures
      var i := ProcessInit(s, cfg, true);
      SystemLive(i) && FindByName(i, cfg, Some(cfg.systemName)) == i.system && i.system.Some?
  {
    var i := ProcessInit(s, cfg, true);
    FindByNameExact(i, cfg, cfg.systemName);
  }

  /** _process_find_by_id: only the system process can be found. */
  function FindById(s: Sys, pid: nat): (r: Option<ProcRef>)
    requires SystemLive(s)
    ensures r.None? || r == s.system
    ensures r.Some? <==> s.system.Some? && s.procs[s.system.value].pid == pid
  {
    if s.system.Some? && s.procs[s.system.value].pid == pid then s.system else None
  }
}

=== FILE: queues.dfy ===
/** dmosi_queue.c over an abstract bounded FIFO. The wrapper checks its
    parameters, converts the timeout as the semaphore does and maps the
    kernel's answer onto the same return codes. What other tasks do while a
    caller is blocked is a parameter; a wait with no limit that nobody
    serves does not return. */
module Queues {
  import opened Base
  import opened Ticks

  /** A FreeRTOS queue: its items, oldest first, and its length. The item
      size only matters to creation. */
  datatype Queue<T> = Queue(items: seq<T>, capacity: nat)
  {
    predicate Ok() {
      0 < capacity && |items| <= capacity
    }
  }

  /** _queue_create: NULL for a zero item size or length, and when the
      allocation or the kernel queue cannot be had; otherwise an empty
      queue of the given length. */
  function Create<T>(itemSize: nat, length: nat, allocOk: bool, kernelOk: bool): (r: Option<Queue<T>>)
    ensures r.Some? <==> itemSize > 0 && length > 0 && allocOk && kernelOk
    ensures r.Some? ==> r.value.Ok() && r.value.items == [] && r.value.capacity == length
  {
    if itemSize == 0 || length == 0 then None
    else if !allocOk || !kernelOk then None
    else Some(Queue([], length))
  }

  /** xQueueSend: an item goes to the back when there is room; on a full
      queue the call returns pdTRUE only if it may block and another task
      receives before the wait runs out (`drained`), taking the oldest item.
      An unserved bounded wait returns pdFALSE; an unserved wait with no
      limit does not return. */
  function Put<T>(q: Queue<T>, x: T, d: Delay, drained: bool): (r: (Answer, Queue<T>))
    requires q.Ok()
    ensures r.1.Ok() && r.1.capacity == q.capacity
    ensures r.0 == PdTrue <==> |q.items| < q.capacity || (d != Ticks(0) && drained)
    ensures r.0 == NoReturn <==> |q.items| == q.capacity && d == Forever && !drained
    ensures r.0 == PdTrue && |q.items| < q.capacity ==> r.1.items == q.items + [x]
    ensures r.0 == PdTrue && |q.items| == q.capacity ==> r.1.items == q.items[1..] + [x]
    ensures r.0 != PdTrue ==> r.1 == q
  {
    if |q.items| < q.capacity then (PdTrue, q.(items := q.items + [x]))
    else
      var a := Served(d, drained);
      if a == PdTrue then (a, q.(items := q.items[1..] + [x])) else (a, q)
  }

  /** xQueueReceive: the oldest item is taken when there is one; on an empty
      queue the call returns pdTRUE only if it may block and another task
      sends an item before the wait runs out (`incoming`), which is handed
      over. An unserved bounded wait returns pdFALSE; an unserved wait with
      no limit does not return. */
  function Take<T>(q: Queue<T>, d: Delay, incoming: Option<T>): (r: (Answer, Option<T>, Queue<T>))
    requires q.Ok()
    ensures r.2.Ok() && r.2.capacity == q.capacity
    ensures r.1.Some? <==> r.0 == PdTrue
    ensures r.0 == PdTrue <==> |q.items| > 0 || (d != Ticks(0) && incoming.Some?)
    ensures r.0 == NoReturn <==> |q.items| == 0 && d == Forever && incoming.None?
    ensures |q.items| > 0 ==> r == (PdTrue, Some(q.items[0]), q.(items := q.items[1..]))
    ensures |q.items| == 0 ==> r.2 == q
    ensures |q.items| == 0 && r.0 == PdTrue ==> r.1 == incoming
  {
    if |q.items| > 0 then (PdTrue, Some(q.items[0]), q.(items := q.items[1..]))
    else
      var a := Served(d, incoming.Some?);
      (a, if a == PdTrue then incoming else None, q)
  }

  /** _queue_send: a NULL queue or item gives EINVAL; otherwise 0 on
      success, EAGAIN when no ticks were allowed, ETIMEDOUT when a bounded
      wait ran out. A send with no limit to a full queue that nobody drains
      stays blocked. */
  function Send<T>(q: Option<Queue<T>>, item: Option<T>, timeoutMs: int, hz: nat, drained: bool): (r: (Pending, Option<Queue<T>>))
    requires hz > 0
    requires q.Some? ==> q.value.Ok()
    ensures q.None? || item.None? ==> r == (Done(Einval), q)
    ensures q.Some? ==> r.1.Some? && r.1.value.Ok() && r.1.value.capacity == q.value.capacity
    ensures q.Some? && item.Some? && |q.value.items| < q.value.capacity ==>
      r == (Done(Success), Some(q.value.(items := q.value.items + [item.value])))
    ensures q.Some? && item.Some? && |q.value.items| == q.value.capacity ==>
      r.0 == WaitStatus(Served(TimeoutDelay(timeoutMs, hz), drained), TimeoutDelay(timeoutMs, hz))
    ensures r.0 == Blocked <==> q.Some? && item.Some? && |q.value.items| == q.value.capacity && timeoutMs < 0 && !drained
    ensures r.0 == Done(Etimedout) ==> timeoutMs > 0
    ensures r.0 != Done(Success) ==> r.1 == q
  {
    if q.None? || item.None? then (Done(Einval), q)
    else
      var d := TimeoutDelay(timeoutMs, hz);
      var p := Put(q.value, item.value, d, drained);
      (WaitStatus(p.0, d), Some(p.1))
  }

  /** What a receive hands back: the return code, the queue and, on
      success, the item copied out. */
  datatype Received<T> = Received(status: Pending, q: Option<Queue<T>>, item: Option<T>)

  /** _queue_receive: a NULL queue or buffer gives EINVAL; otherwise 0 with
      the oldest item on success, EAGAIN when no ticks were allowed,
      ETIMEDOUT when a bounded wait ran out. A receive with no limit from an
      empty queue that nobody fills stays blocked. */
  function Receive<T>(q: Option<Queue<T>>, hasBuffer: bool, timeoutMs: int, hz: nat, incoming: Option<T>): (r: Received<T>)
    requires hz > 0
    requires q.Some? ==> q.value.Ok()
    ensures q.None? || !hasBuffer ==> r == Received(Done(Einval), q, None)
    ensures q.Some? ==> r.q.Some? && r.q.value.Ok() && r.q.value.capacity == q.value.capacity
    ensures q.Some? && hasBuffer && |q.value.items| > 0 ==>
      r == Received(Done(Success), Some(q.value.(items := q.value.items[1..])), Some(q.value.items[0]))
    ensures q.Some? && hasBuffer && |q.value.items| == 0 ==>
      && r.q == q
      && r.status == WaitStatus(Served(TimeoutDelay(timeoutMs, hz), incoming.Some?), TimeoutDelay(timeoutMs, hz))
    ensures r.status == Blocked <==> q.Some? && hasBuffer && |q.value.items| == 0 && timeoutMs < 0 && incoming.None?
    ensures r.status == Done(Etimedout) ==> timeoutMs > 0
    ensures r.status == Done(Success) <==> r.item.Some?
  {
    if q.None? || !hasBuffer then Received(Done(Einval), q, None)
    else
      var d := TimeoutDelay(timeoutMs, hz);
      var t := Take(q.value, d, incoming);
      Received(WaitStatus(t.0, d), Some(t.2), t.1)
  }

  /** On a full queue: a non-blocking send would block; a send with no limit
      returns 0 once a receiver makes room and otherwise stays blocked; a
      bounded send of at least one tick that nobody drains times out. */
  lemma FullSendOutcomes<T>(q: Queue<T>, x: T, timeoutMs: int, hz: nat, drained: bool)
    requires hz > 0 && q.Ok() && |q.items| == q.capacity
    ensures timeoutMs == 0 ==> Send(Some(q), Some(x), timeoutMs, hz, drained) == (Done(Eagain), Some(q))
    ensures timeoutMs < 0 && drained ==>
      Send(Some(q), Some(x), timeoutMs, hz, drained) == (Done(Success), Some(q.(items := q.items[1..] + [x])))
    ensures timeoutMs < 0 && !drained ==> Send(Some(q), Some(x), timeoutMs, hz, drained) == (Blocked, Some(q))
    ensures timeoutMs * hz >= 1000 && !drained ==> Send(Some(q), Some(x), timeoutMs, hz, drained) == (Done(Etimedout), Some(q))
  {
  }

  /** On an empty queue: a non-blocking receive would block; a receive with
      no limit returns 0 with the item another task sends and otherwise
      stays blocked; a bounded receive of at least one tick that nobody
      serves times out. */
  lemma EmptyReceiveOutcomes<T>(q: Queue<T>, timeoutMs: int, hz: nat, incoming: Option<T>)
    requires hz > 0 && q.Ok() && q.items == []
    ensures timeoutMs == 0 ==> Receive(Some(q), true, timeoutMs, hz, incoming) == Received(Done(Eagain), Some(q), None)
    ensures timeoutMs < 0 && incoming.Some? ==> Receive(Some(q), true, timeoutMs, hz, incoming) == Received(Done(Success), Some(q), incoming)
    ensures timeoutMs < 0 && incoming.None? ==> Receive(Some(q), true, timeoutMs, hz, incoming) == Received(Blocked, Some(q), None)
    ensures timeoutMs * hz >= 1000 && incoming.None? ==> Receive(Some(q), true, timeoutMs, hz, incoming) == Received(Done(Etimedout), Some(q), None)
  {
  }

  /** Sending a sequence into a queue with room for it appends the sequence
      in order. */
  lemma {:induction false} FifoRoundTrip<T>(q: Queue<T>, xs: seq<T>, hz: nat)
    requires hz > 0 && q.Ok()
    requires |q.items| + |xs| <= q.capacity
    ensures SendAll(q, xs, hz).Ok() && SendAll(q, xs, hz).items == q.items + xs
    decreases |xs|
  {
    if |xs| > 0 {
      var q1 := Send(Some(q), Some(xs[0]), 0, hz, false).1.value;
      assert q1.items == q.items + [xs[0]];
      FifoRoundTrip(q1, xs[1..], hz);
      assert q.items + [xs[0]] + xs[1..] == q.items + xs;
    }
  }

  /** Sending each item of `xs` in turn, without waiting. */
  function SendAll<T>(q: Queue<T>, xs: seq<T>, hz: nat): (r: Queue<T>)
    requires hz > 0 && q.Ok()
    ensures r.Ok() && r.capacity == q.capacity
    decreases |xs|
  {
    if |xs| == 0 then q
    else SendAll(Send(Some(q), Some(xs[0]), 0, hz, false).1.value, xs[1..], hz)
  }

  /** Receiving `n` times without waiting yields the first `n` items in
      order. */
  function ReceiveAll<T>(q: Queue<T>, n: nat, hz: nat): (r: (seq<T>, Queue<T>))
    requires hz > 0 && q.Ok()
    ensures r.1.Ok() && r.1.capacity == q.capacity
    decreases n
  {
    if n == 0 then ([], q)
    else
      var t := Receive(Some(q), true, 0, hz, None);
      var rest := ReceiveAll(t.q.value, n - 1, hz);
      ((if t.item.Some? then [t.item.value] else []) + rest.0, rest.1)
  }

  /** Receiving `n` times from a queue holding at least `n` items takes
      its first `n` items and leaves the rest. */
  lemma {:induction false} ReceiveAllTakesPrefix<T>(q: Queue<T>, n: nat, hz: nat)
    requires hz > 0 && q.Ok() && n <= |q.items|
    ensures ReceiveAll(q, n, hz) == (q.items[..n], q.(items := q.items[n..]))
    decreases n
  {
    if n > 0 {
      var q1 := q.(items := q.items[1..]);
      ReceiveAllTakesPrefix(q1, n - 1, hz);
      assert [q.items[0]] + q1.items[..n - 1] == q.items[..n];
      assert q1.items[n - 1..] == q.items[n..];
    }
  }

  /** Items come out in the order they went in: sending a sequence into an
      empty queue with room for it and receiving as many times gives the
      sequence back and leaves the queue empty. */
  lemma FifoOrder<T>(q: Queue<T>, xs: seq<T>, hz: nat)
    requires hz > 0 && q.Ok() && q.items == [] && |xs| <= q.capacity
    ensures ReceiveAll(SendAll(q, xs, hz), |xs|, hz).0 == xs
    ensures ReceiveAll(SendAll(q, xs, hz), |xs|, hz).1.items == []
  {
    FifoRoundTrip(q, xs, hz);
    ReceiveAllTakesPrefix(SendAll(q, xs, hz), |xs|, hz);
    assert xs[..|xs|] == xs;
  }

  /** The scenario of the queue test on a queue of length 5: a sent item is
      received back; five sends fill it and a sixth non-blocking send would
      block; five receives drain it and a sixth would block; NULL items and
      buffers are refused. */
  lemma QueueScenario(hz: nat)
    requires hz > 0
    ensures
      var q0 := Create<int>(4, 5, true, true);
      && q0 == Some(Queue([], 5))
      && var s1 := Send(q0, Some(42), 0, hz, false);
      && s1.0 == Done(Success)
      && var r1 := Receive(s1.1, true, 0, hz, None);
      && r1.status == Done(Success) && r1.item == Some(42) && r1.q == q0
      && var full := SendAll(r1.q.value, [0, 1, 2, 3, 4], hz);
      && full.items == [0, 1, 2, 3, 4]
      && Send(Some(full), Some(42), 0, hz, false).0 == Done(Eagain)
      && var drained := ReceiveAll(full, 5, hz);
      && drained.0 == [0, 1, 2, 3, 4]
      && Receive(Some(drained.1), true, 0, hz, None).status == Done(Eagain)
      && Send(Some(drained.1), None, 0, hz, false).0 == Done(Einval)
      && Receive(Some(drained.1), false, 0, hz, None).status == Done(Einval)
    ensures Create<int>(0, 5, true, true).None? && Create<int>(4, 0, true, true).None?
    ensures Send<int>(None, Some(42), 0, hz, false).0 == Done(Einval) && Receive<int>(None, true, 0, hz, None).status == Done(Einval)
  {
    var q0: Queue<int> := Queue([], 5);
    FifoOrder(q0, [0, 1, 2, 3, 4], hz);
    FifoRoundTrip(q0, [0, 1, 2, 3, 4], hz);
  }
}

=== FILE: semaphores.dfy ===
/** dmosi_semaphore.c over an abstract FreeRTOS counting semaphore. The
    wrapper's own logic is the parameter checks, the timeout conversion and
    the mapping of the kernel's answer onto a return code; the kernel
    semaphore is a count kept within [0, max]. What other tasks do while a
    caller is blocked is a parameter; a wait with no limit that nobody
    serves does not return. */
module Semaphores {
  import opened Base
  import opened Ticks

  /** A counting semaphore: its current count and the maximum it accepts. */
  datatype Sem = Sem(count: nat, max: nat)
  {
    predicate Ok() {
      0 < max && count <= max
    }
  }

  /** _semaphore_create: NULL for a zero maximum or an initial count above
      it, and when the allocation (`allocOk`) or the kernel object
      (`kernelOk`) cannot be had. */
  function Create(initial: nat, max: nat, allocOk: bool, kernelOk: bool): (r: Option<Sem>)
    ensures r.Some? <==> max > 0 && initial <= max && allocOk && kernelOk
    ensures r.Some? ==> r.value.Ok() && r.value.count == initial && r.value.max == max
  {
    if max == 0 || initial > max then None
    else if !allocOk || !kernelOk then None
    else Some(Sem(initial, max))
  }

  /** xSemaphoreTake: an available unit is taken at once; otherwise the call
      returns pdTRUE only if it may block and another task posts before the
      wait runs out (`posted`), handing the unit straight over. An unserved
      bounded wait returns pdFALSE; an unserved wait with no limit does not
      return. */
  function Take(sem: Sem, d: Delay, posted: bool): (r: (Answer, Sem))
    ensures r.0 == PdTrue <==> sem.count > 0 || (d != Ticks(0) && posted)
    ensures r.0 == NoReturn <==> sem.count == 0 && d == Forever && !posted
    ensures r.0 == PdTrue && sem.count > 0 ==> r.1 == sem.(count := sem.count - 1)
    ensures !(r.0 == PdTrue && sem.count > 0) ==> r.1 == sem
  {
    if sem.count > 0 then (PdTrue, sem.(count := sem.count - 1))
    else (Served(d, posted), sem)
  }

  /** _semaphore_wait: NULL gives EINVAL; otherwise the timeout is converted
      (negative = forever, 0 = no wait, positive = pdMS_TO_TICKS) and the
      kernel's answer mapped: 0 on success, EAGAIN when no ticks were
      allowed, ETIMEDOUT when a bounded wait ran out. A wait with no limit
      on an empty semaphore that nobody posts to stays blocked. */
  function Wait(sem: Option<Sem>, timeoutMs: int, hz: nat, posted: bool): (r: (Pending, Option<Sem>))
    requires hz > 0
    requires sem.Some? ==> sem.value.Ok()
    ensures sem.None? ==> r == (Done(Einval), None)
    ensures sem.Some? ==> r.1.Some? && r.1.value.Ok() && r.1.value.max == sem.value.max
    ensures sem.Some? && sem.value.count > 0 ==> r == (Done(Success), Some(sem.value.(count := sem.value.count - 1)))
    ensures sem.Some? && sem.value.count == 0 ==>
      r.1 == sem && r.0 == WaitStatus(Served(TimeoutDelay(timeoutMs, hz), posted), TimeoutDelay(timeoutMs, hz))
    ensures r.0 == Blocked <==> sem.Some? && sem.value.count == 0 && timeoutMs < 0 && !posted
    ensures r.0 == Done(Etimedout) ==> timeoutMs > 0
    ensures r.0 in {Done(Success), Done(Einval), Done(Eagain), Done(Etimedout), Blocked}
  {
    if sem.None? then (Done(Einval), None)
    else
      var d := TimeoutDelay(timeoutMs, hz);
      var t := Take(sem.value, d, posted);
      (WaitStatus(t.0, d), Some(t.1))
  }

  /** _semaphore_post: NULL gives EINVAL; a give at the maximum is refused by
      the kernel and reported as EOVERFLOW; otherwise the count goes up. */
  function Post(sem: Option<Sem>): (r: (Status, Option<Sem>))
    requires sem.Some? ==> sem.value.Ok()
    ensures sem.None? ==> r == (Einval, None)
    ensures sem.Some? ==> r.1.Some? && r.1.value.Ok()
    ensures sem.Some? && sem.value.count < sem.value.max ==> r == (Success, Some(sem.value.(count := sem.value.count + 1)))
    ensures sem.Some? && sem.value.count == sem.value.max ==> r == (Eoverflow, sem)
  {
    if sem.None? then (Einval, None)
    else if sem.value.count < sem.value.max then (Success, Some(sem.value.(count := sem.value.count + 1)))
    else (Eoverflow, sem)
  }

  /** A post followed by a wait, or a wait followed by a post, restores the
      semaphore whenever the first call succeeded. */
  lemma PostWaitInverse(sem: Sem, timeoutMs: int, hz: nat, posted: bool)
    requires hz > 0 && sem.Ok()
    ensures Post(Some(sem)).0 == Success ==> Wait(Post(Some(sem)).1, timeoutMs, hz, posted) == (Done(Success), Some(sem))
    ensures sem.count > 0 ==> Wait(Some(sem), timeoutMs, hz, posted).0 == Done(Success) && Post(Wait(Some(sem), timeoutMs, hz, posted).1) == (Success, Some(sem))
  {
  }

  /** On an empty semaphore: a non-blocking wait would block, whatever
      other tasks do; a wait with no limit returns 0 once served and
      otherwise stays blocked; a bounded wait of at least one tick that
      nobody serves times out; and only a positive timeout ever times out. */
  lemma EmptyWaitOutcomes(sem: Sem, timeoutMs: int, hz: nat, posted: bool)
    requires hz > 0 && sem.Ok() && sem.count == 0
    ensures timeoutMs == 0 ==> Wait(Some(sem), timeoutMs, hz, posted) == (Done(Eagain), Some(sem))
    ensures timeoutMs < 0 && posted ==> Wait(Some(sem), timeoutMs, hz, posted) == (Done(Success), Some(sem))
    ensures timeoutMs < 0 && !posted ==> Wait(Some(sem), timeoutMs, hz, posted) == (Blocked, Some(sem))
    ensures timeoutMs * hz >= 1000 && !posted ==> Wait(Some(sem), timeoutMs, hz, posted) == (Done(Etimedout), Some(sem))
    ensures Wait(Some(sem), timeoutMs, hz, posted).0 == Done(Etimedout) ==> timeoutMs > 0
  {
  }

  /** The scenario of the semaphore test: initial 1, maximum 5; wait(0)
      succeeds, a second wait(0) would block, a post succeeds, wait(100)
      succeeds; five posts fill it and a sixth overflows. */
  lemma SemaphoreScenario(hz: nat, posted: bool)
    requires hz > 0
    ensures
      var s0 := Create(1, 5, true, true);
      && s0 == Some(Sem(1, 5))
      && var w1 := Wait(s0, 0, hz, posted);
      && w1.0 == Done(Success)
      && var w2 := Wait(w1.1, 0, hz, posted);
      && w2.0 == Done(Eagain)
      && var p1 := Post(w2.1);
      && p1.0 == Success
      && var w3 := Wait(p1.1, 100, hz, posted);
      && w3.0 == Done(Success)
      && var p6 := Post(Post(Post(Post(Post(w3.1).1).1).1).1);
      && p6.1 == Some(Sem(5, 5))
      && Post(p6.1).0 == Eoverflow
    ensures Create(0, 0, true, true).None? && Create(5, 3, true, true).None?
    ensures Wait(None, 0, hz, posted).0 == Done(Einval) && Post(None).0 == Einval
  {
  }
}

=== FILE: threadinfo.dfy ===
/** The integer part of _thread_get_info: the terminated test, the mapping of
    the FreeRTOS task state, the stack-peak clamp and the overflow-avoiding
    runtime conversion. The kernel's vTaskGetInfo snapshot and the POSIX
    clock rate are parameters. */
module ThreadInfo {
  import opened Base
  import opened Kernel
  import Threads

  /** eTaskState as reported by vTaskGetInfo. */
  datatype NativeState = ERunning | EReady | EBlocked | ESuspended | EDeleted | EInvalid

  /** dmosi_thread_state_t. */
  datatype ThreadState = StateRunning | StateReady | StateBlocked | StateSuspended | StateTerminated

  /** The fields of TaskStatus_t the wrapper reads. */
  datatype TaskStatus = TaskStatus(state: NativeState, highWaterWords: nat, runCounter: nat)

  /** dmosi_thread_info_t without the floating-point cpu_usage. */
  datatype Info = Info(stackTotal: nat, stackCurrent: nat, stackPeak: nat, state: ThreadState, runtimeMs: nat)

  /** The switch over eCurrentState: the four live states map one to one,
      deleted and anything else map to terminated. */
  function MapState(n: NativeState): (st: ThreadState)
    ensures st == StateTerminated <==> n == EDeleted || n == EInvalid
    ensures st == StateRunning <==> n == ERunning
    ensures st == StateReady <==> n == EReady
    ensures st == StateBlocked <==> n == EBlocked
    ensures st == StateSuspended <==> n == ESuspended
  {
    match n
    case ERunning => StateRunning
    case EReady => StateReady
    case EBlocked => StateBlocked
    case ESuspended => StateSuspended
    case EDeleted => StateTerminated
    case EInvalid => StateTerminated
  }

  /** Two live native states are never reported alike. */
  lemma MapStateSeparatesLiveStates(a: NativeState, b: NativeState)
    requires MapState(a) != StateTerminated
    ensures MapState(a) == MapState(b) <==> a == b
  {
  }

  /** Peak stack usage: the total minus the least free space ever seen,
      clamped at zero when the free space is not smaller than the total. */
  function StackPeak(stackSize: nat, freeBytes: nat): (peak: nat)
    ensures peak <= stackSize
    ensures peak + freeBytes >= stackSize
    ensures peak > 0 <==> stackSize > freeBytes
    ensures peak > 0 ==> peak + freeBytes == stackSize
  {
    if stackSize > freeBytes then stackSize - freeBytes else 0
  }

  /** runtime_ms as computed: whole seconds times 1000 plus the remainder's
      milliseconds, with 0 when the clock rate is not positive. A build
      without sysconf, which always reports 0, is the case clkTck <= 0. The
      result is unbounded; the C sum is a uint64_t. */
  function RuntimeMs(counter: nat, clkTck: int): (ms: nat)
    ensures clkTck <= 0 ==> ms == 0
    ensures clkTck > 0 ==> ms == counter * 1000 / clkTck
  {
    if clkTck > 0 then
      SplitDivisionExact(counter, clkTck);
      (counter / clkTck) * 1000 + (counter % clkTck) * 1000 / clkTck
    else 0
  }

  /** Dividing before multiplying loses nothing: the split computation is
      the floor of counter * 1000 / freq. */
  lemma SplitDivisionExact(counter: nat, freq: nat)
    requires freq > 0
    ensures (counter / freq) * 1000 + (counter % freq) * 1000 / freq == counter * 1000 / freq
  {
    var q := counter / freq;
    var m := counter % freq;
    assert counter * 1000 == (q * 1000) * freq + m * 1000 by {
      assert counter == q * freq + m;
    }
    DivAddMultiple(q * 1000, m * 1000, freq);
  }

  lemma DivAddMultiple(a: nat, b: nat, k: nat)
    requires k > 0
    ensures (a * k + b) / k == a + b / k
  {
    var q := b / k;
    var m := b % k;
    assert b == q * k + m;
    assert a * k + b == (a + q) * k + m by {
      assert a * k + q * k == (a + q) * k;
    }
    DivUnique(a * k + b, k, a + q, m);
  }

  /** Euclidean division has one quotient. */
  lemma DivUnique(x: nat, k: nat, q: nat, m: nat)
    requires k > 0 && m < k
    requires x == q * k + m
    ensures x / k == q
  {
    var d := x / k;
    var r := x % k;
    assert x == d * k + r;
    if d > q {
      var e := d - q;
      assert d * k == e * k + q * k by { assert d == e + q; }
      MulMono(e, k);
      assert false;
    } else if d < q {
      var e := q - d;
      assert q * k == e * k + d * k by { assert q == e + d; }
      MulMono(e, k);
      assert false;
    }
  }

  /** The point of the split: with a 64-bit counter and a clock rate below
      2^54, the sub-second product stays within 64 bits, whereas the direct
      product counter * 1000 does not for large counters. The whole-second
      product fits too when the counter is 32 bits wide. */
  lemma SplitProductFits64(counter: nat, freq: nat)
    requires 0 < freq < 0x40_0000_0000_0000
    requires counter < 0x1_0000_0000_0000_0000
    ensures (counter % freq) * 1000 < 0x1_0000_0000_0000_0000
    ensures counter / freq * 1000 <= counter * 1000 / freq
    ensures counter >= 0x4000_0000_0000_0000 ==> counter * 1000 >= 0x1_0000_0000_0000_0000
    ensures counter < 0x1_0000_0000 ==> counter / freq * 1000 < 0x1_0000_0000_0000_0000
  {
    SplitDivisionExact(counter, freq);
    DivAtMost(counter, freq);
  }

  /** The record's task has ended: no handle, or an entry that has
      returned (or was killed). A lazily registered record is never ended. */
  predicate Ended(rec: Thread) {
    rec.handle.None? || (rec.hasEntry && rec.completed)
  }

  /** The terminated test is exactly "the record no longer claims its task",
      so on a valid state vTaskGetInfo is only ever asked about a live task. */
  lemma InfoQueriesOnlyLiveTasks(s: Sys, th: ThreadRef)
    requires Valid(s) && th in s.threads
    ensures Ended(s.threads[th]) <==> !Claims(s.threads[th])
    ensures !Ended(s.threads[th]) ==> Alive(s, s.threads[th].handle.value)
    ensures Ended(s.threads[th]) && s.threads[th].handle.Some? ==> !Alive(s, s.threads[th].handle.value)
  {
    if !Ended(s.threads[th]) {
      assert BoundTo(s, s.threads[th].handle.value, th);
    }
  }

  /** The info reported for one record, given the kernel's snapshot of its
      task. */
  function InfoOf(cfg: Config, rec: Thread, snap: TaskStatus, clkTck: int): (info: Info)
    requires cfg.Ok()
    ensures info.stackTotal == rec.stackSize && info.stackCurrent == 0
    ensures info.stackPeak <= info.stackTotal
    ensures Ended(rec) ==> info == Info(rec.stackSize, 0, 0, StateTerminated, 0)
    ensures !Ended(rec) ==>
      && info.state == MapState(snap.state)
      && info.stackPeak == StackPeak(rec.stackSize, snap.highWaterWords * cfg.wordBytes)
      && info.runtimeMs == RuntimeMs(snap.runCounter, clkTck)
  {
    if Ended(rec) then Info(rec.stackSize, 0, 0, StateTerminated, 0)
    else Info(rec.stackSize, 0, StackPeak(rec.stackSize, snap.highWaterWords * cfg.wordBytes),
              MapState(snap.state), RuntimeMs(snap.runCounter, clkTck))
  }

  datatype InfoResult = InfoResult(status: Status, info: Option<Info>)

  /** _thread_get_info. A NULL info pointer gives EINVAL; a NULL thread means
      the caller's own record, registered lazily if need be, and EFAULT when
      that fails; otherwise the info of the record and 0. */
  function GetInfo(s: Sys, cfg: Config, r: Option<ThreadRef>, hasInfo: bool, caller: Option<TaskId>, allocOk: bool,
                   snap: TaskStatus, clkTck: int): (o: Out<InfoResult>)
    requires cfg.Ok() && Valid(s)
    requires caller.Some? ==> Executing(s, caller.value)
    requires r.Some? ==> r.value in s.threads
    ensures !hasInfo ==> o == Out(s, InfoResult(Einval, None))
    ensures o.v.status == Efault <==> hasInfo && r.None? && Threads.Current(s, caller, allocOk).v.None?
    ensures o.v.status == Success <==> o.v.info.Some?
    ensures o.v.status in {Success, Einval, Efault}
    ensures r.Some? ==> o.s == s
    ensures hasInfo && r.Some? ==> o.v == InfoResult(Success, Some(InfoOf(cfg, s.threads[r.value], snap, clkTck)))
    ensures Valid(o.s)
  {
    if !hasInfo then Out(s, InfoResult(Einval, None))
    else
      var c := if r.Some? then Out(s, r) else Threads.Current(s, caller, allocOk);
      if c.v.None? then Out(c.s, InfoResult(Efault, None))
      else Out(c.s, InfoResult(Success, Some(InfoOf(cfg, c.s.threads[c.v.value], snap, clkTck))))
  }

  /** A thread that ran to completion reports terminated with no stack use
      and no runtime, whatever the kernel snapshot says; the caller's own
      lazily registered record is reported live. */
  lemma FinishedThreadReportsTerminated(s: Sys, cfg: Config, t: TaskId, snap: TaskStatus, clkTck: int)
    requires cfg.Ok() && Valid(s) && Executing(s, t)
    requires s.tasks[t].param.Some? && s.tasks[t].param.value in s.threads
    ensures
      var f := Threads.WrapperFinish(s, t);
      var th := s.tasks[t].param.value;
      GetInfo(f, cfg, Some(th), true, None, false, snap, clkTck).v
        == InfoResult(Success, Some(Info(s.threads[th].stackSize, 0, 0, StateTerminated, 0)))
  {
  }

  lemma LazyRecordReportsLive(s: Sys, cfg: Config, caller: TaskId, snap: TaskStatus, clkTck: int)
    requires cfg.Ok() && Valid(s) && Executing(s, caller) && s.tasks[caller].tls.None?
    requires snap.state == ERunning
    ensures
      var o := GetInfo(s, cfg, None, true, Some(caller), true, snap, clkTck);
      && o.v.status == Success
      && o.v.info.value.state == StateRunning
      && o.v.info.value.stackTotal == 0
      && o.v.info.value.stackPeak == 0
  {
  }

  /** Finding: kill as written keeps the handle of the record it kills. A
      record registered lazily has no entry, so the terminated test looks
      only at the handle: after another task kills it the record is not
      ended although its task is deleted, and get_info hands that deleted
      task's handle to vTaskGetInfo and reports its snapshot as live. */
  lemma KillAsWrittenKeepsLazyHandle(s: Sys, cfg: Config, victim: TaskId, killer: TaskId, snap: TaskStatus, clkTck: int)
    requires cfg.Ok() && Valid(s) && Executing(s, victim) && Executing(s, killer) && victim != killer
    requires s.tasks[victim].tls.None?
    ensures
      var c := Threads.Current(s, Some(victim), true);
      && c.v.Some?
      && var k := Threads.KillStateAsWritten(c.s, c.v.value, Some(killer));
      && var rec := k.threads[c.v.value];
      && rec.handle == Some(victim)
      && !Alive(k, victim)
      && !Ended(rec)
      && InfoOf(cfg, rec, snap, clkTck).state == MapState(snap.state)
  {
    var c := Threads.Current(s, Some(victim), true);
    assert c.s.threads[c.v.value].handle == Some(victim) && !c.s.threads[c.v.value].hasEntry;
  }

  /** The corrected kill forgets the handle, so the same record reports
      terminated afterwards and no task is queried. */
  lemma KilledLazyRecordReportsTerminated(s: Sys, cfg: Config, victim: TaskId, killer: TaskId, snap: TaskStatus, clkTck: int)
    requires cfg.Ok() && Valid(s) && Executing(s, victim) && Executing(s, killer) && victim != killer
    requires s.tasks[victim].tls.None?
    ensures
      var c := Threads.Current(s, Some(victim), true);
      && c.v.Some?
      && var k := Threads.Kill(c.s, c.v, 0, Some(killer));
      && !Alive(k.s, victim)
      && Executing(k.s, killer)
      && GetInfo(k.s, cfg, c.v, true, Some(killer), false, snap, clkTck).v
           == InfoResult(Success, Some(Info(0, 0, 0, StateTerminated, 0)))
  {
    var c := Threads.Current(s, Some(victim), true);
    var rec := c.s.threads[c.v.value];
    assert rec.handle == Some(victim) && !rec.hasEntry && rec.stackSize == 0;
    assert Executing(c.s, killer);
    assert Threads.KillTarget(rec) == Some(victim);
    var k := Threads.Kill(c.s, c.v, 0, Some(killer));
    assert k.s.tasks[killer].started == c.s.tasks[killer].started;
    assert Ended(k.s.threads[c.v.value]);
  }
}

=== FILE: threads.dfy ===
/** The thread-handle lifecycle of dmosi_thread.c. A thread record outlives
    its FreeRTOS task: the task deletes itself when its entry returns, while
    the record stays valid until _thread_destroy frees it. Each function
    below is one critical section (or one non-blocking API call); a join
    that blocks in ulTaskNotifyTake is split into a start and a resume step. */
module Threads {
  import opened Base
  import opened Kernel
  import Processes
  import Ticks

  // ---------------------------------------------------------------------
  // Creation
  // ---------------------------------------------------------------------

  /** thread_new: a fresh record, not joined and with no joiner, which counts
      as completed from the start exactly when it has no entry function. */
  function NewRecord(handle: Option<TaskId>, hasEntry: bool, process: Option<ProcRef>, stackSize: nat): (rec: Thread)
    ensures rec.completed <==> !hasEntry
    ensures !rec.joined && rec.joiner.None?
    ensures rec.handle == handle && rec.hasEntry == hasEntry && rec.process == process && rec.stackSize == stackSize
    ensures Claims(rec) <==> handle.Some?
  {
    Thread(handle, hasEntry, !hasEntry, false, None, process, stackSize)
  }

  /** The stack depth handed to xTaskCreate: the byte size rounded up to
      whole StackType_t words, computed in size_t. */
  function StackWords(cfg: Config, n: nat): (w: nat)
    requires cfg.Ok()
    ensures n + cfg.wordBytes - 1 < cfg.sizeMod ==>
      w * cfg.wordBytes >= n && (w == 0 || (w - 1) * cfg.wordBytes < n)
  {
    var w := ((n + cfg.wordBytes - 1) % cfg.sizeMod) / cfg.wordBytes;
    if n + cfg.wordBytes - 1 < cfg.sizeMod then
      ModBelow(n + cfg.wordBytes - 1, cfg.sizeMod);
      CeilDivBounds(n, cfg.wordBytes);
      w
    else
      w
  }

  lemma ModBelow(a: nat, m: nat)
    requires a < m
    ensures a % m == a
  {
  }

  lemma CeilDivBounds(n: nat, k: nat)
    requires k > 0
    ensures var w := (n + k - 1) / k; w * k >= n && (w == 0 || (w - 1) * k < n)
  {
    var w := (n + k - 1) / k;
    var m := (n + k - 1) % k;
    assert w * k + m == n + k - 1;
    assert 0 <= m < k;
    if w > 0 {
      assert (w - 1) * k == w * k - k;
    }
  }

  /** Rounding up cannot be trusted at the very top of size_t: the addition
      wraps and the depth comes out far too small. */
  lemma StackWordsWrapNearSizeMax(cfg: Config)
    requires cfg.Ok() && cfg.wordBytes >= 2
    ensures StackWords(cfg, cfg.sizeMod - 1) * cfg.wordBytes < cfg.sizeMod - 1
  {
    var k, m := cfg.wordBytes, cfg.sizeMod;
    var n := m - 1;
    assert n + k - 1 == m + (k - 2);
    ModPastModulus(k - 2, m);
    assert (k - 2) / k == 0;
    assert StackWords(cfg, n) == 0;
  }

  lemma ModPastModulus(a: nat, m: nat)
    requires a < m
    ensures (m + a) % m == a
  {
    assert m + a == 1 * m + a;
  }

  /** The process a new thread is attributed to: the one given, or the
      caller's current process. */
  function CreateProcess(s: Sys, process: Option<ProcRef>, caller: Option<TaskId>): Option<ProcRef>
    requires Valid(s)
  {
    if process.Some? then process else Processes.ProcessCurrent(s, caller)
  }

  /** _thread_create. The entry, the name and the priority are passed to the
      kernel and are observed here only as "present or NULL"; `allocOk` is
      the outcome of the record allocation and `spawnOk` that of xTaskCreate. */
  function Create(s: Sys, cfg: Config, hasEntry: bool, stackSize: nat, hasName: bool,
                  process: Option<ProcRef>, caller: Option<TaskId>, allocOk: bool, spawnOk: bool): (r: Out<Option<ThreadRef>>)
    requires cfg.Ok() && Valid(s)
    requires caller.Some? ==> Executing(s, caller.value)
    ensures r.v.Some? <==> hasEntry && stackSize > 0 && hasName && allocOk && spawnOk
    ensures r.v.None? ==> r.s == s
    ensures r.v.Some? ==>
      && r.v.value !in s.threads
      && s.nextTask !in s.tasks
      && r.s.threads == s.threads[r.v.value := NewRecord(Some(s.nextTask), true, CreateProcess(s, process, caller), stackSize)]
      && r.s.tasks == s.tasks[s.nextTask := Task(true, false, Some(r.v.value), None, 0, StackWords(cfg, stackSize), false)]
      && r.s.nextThread == s.nextThread + 1 && r.s.nextTask == s.nextTask + 1
      && r.s == s.(threads := r.s.threads, tasks := r.s.tasks, nextThread := r.s.nextThread, nextTask := r.s.nextTask)
    ensures Valid(r.s)
  {
    if !hasEntry || stackSize == 0 || !hasName then Out(s, None)
    else if !allocOk || !spawnOk then Out(s, None)
    else
      var th := s.nextThread;
      var t := s.nextTask;
      var rec := NewRecord(Some(t), true, CreateProcess(s, process, caller), stackSize);
      var task := Task(true, false, Some(th), None, 0, StackWords(cfg, stackSize), false);
      var s' := s.(threads := s.threads[th := rec], nextThread := th + 1, tasks := s.tasks[t := task], nextTask := t + 1);
      CreatePreservesValid(s, s', th, t, StackWords(cfg, stackSize));
      Out(s', Some(th))
  }

  lemma CreatePreservesValid(s: Sys, s': Sys, th: ThreadRef, t: TaskId, depth: nat)
    requires Valid(s)
    requires th == s.nextThread && t == s.nextTask
    requires s'.threads.Keys == s.threads.Keys + {th}
    requires forall x | x in s.threads :: s'.threads[x] == s.threads[x]
    requires s'.threads[th].handle == Some(t) && s'.threads[th].hasEntry && !s'.threads[th].completed
    requires s'.tasks == s.tasks[t := Task(true, false, Some(th), None, 0, depth, false)]
    requires s'.nextThread == th + 1 && s'.nextTask == t + 1 && s'.procs == s.procs && s'.nextProc == s.nextProc
    ensures Valid(s')
  {
    assert th !in s.threads && t !in s.tasks;
    assert ClaimsBound(s') by {
      forall x | x in s'.threads && Claims(s'.threads[x]) ensures BoundTo(s', s'.threads[x].handle.value, x) {
        if x != th {
          assert BoundTo(s, s.threads[x].handle.value, x);
        }
      }
    }
    assert ParamSound(s') by {
      forall u | u in s'.tasks && s'.tasks[u].alive && s'.tasks[u].param.Some? && s'.tasks[u].param.value in s'.threads
        ensures s'.threads[s'.tasks[u].param.value].handle == Some(u)
      {
        if u != t {
          assert s'.tasks[u].param.value < th;
        }
      }
    }
  }

  /** The created task's stack holds at least the requested bytes. */
  lemma CreatedStackCoversRequest(s: Sys, cfg: Config, stackSize: nat, process: Option<ProcRef>, caller: Option<TaskId>)
    requires cfg.Ok() && Valid(s)
    requires caller.Some? ==> Executing(s, caller.value)
    requires 0 < stackSize && stackSize + cfg.wordBytes - 1 < cfg.sizeMod
    ensures
      var r := Create(s, cfg, true, stackSize, true, process, caller, true, true);
      && r.v.Some?
      && var t := r.s.threads[r.v.value].handle.value;
      && r.s.tasks[t].depth * cfg.wordBytes >= stackSize
      && (r.s.tasks[t].depth - 1) * cfg.wordBytes < stackSize
  {
  }

  // ---------------------------------------------------------------------
  // The task function thread_wrapper
  // ---------------------------------------------------------------------

  /** thread_wrapper starts: it stores its record in its own TLS slot. */
  function WrapperStart(s: Sys, t: TaskId): (r: Sys)
    requires Valid(s) && Alive(s, t) && !s.tasks[t].started
    ensures r.tasks == s.tasks[t := s.tasks[t].(started := true, tls := s.tasks[t].param)]
    ensures r.threads == s.threads
    ensures Valid(r)
  {
    var r := s.(tasks := s.tasks[t := s.tasks[t].(started := true, tls := s.tasks[t].param)]);
    assert ClaimsBound(r) by {
      forall x | x in r.threads && Claims(r.threads[x]) ensures BoundTo(r, r.threads[x].handle.value, x) {
        assert BoundTo(s, s.threads[x].handle.value, x);
      }
    }
    r
  }

  /** thread_wrapper finishes after its entry returned: in one critical
      section it marks the record completed and captures the joiner, then
      clears its TLS slot, notifies the joiner and deletes itself. */
  function WrapperFinish(s: Sys, t: TaskId): (r: Sys)
    requires Valid(s) && Executing(s, t)
    requires s.tasks[t].param.Some? && s.tasks[t].param.value in s.threads
    ensures var th := s.tasks[t].param.value;
      && r.threads == s.threads[th := s.threads[th].(completed := true)]
      && !Alive(r, t)
      && r.tasks.Keys == s.tasks.Keys
      && r.tasks[t].tls.None? && r.tasks[t].reaping
      && (forall u | u != t :: Alive(r, u) == Alive(s, u))
      && (forall u | u in s.tasks && u != t :: r.tasks[u].tls == s.tasks[u].tls)
      && (forall u | u in s.tasks :: r.tasks[u].started == s.tasks[u].started)
      && (s.threads[th].joiner.Some? && s.threads[th].joiner.value != t && Alive(s, s.threads[th].joiner.value) ==>
            r.tasks[s.threads[th].joiner.value].notify == s.tasks[s.threads[th].joiner.value].notify + 1)
    ensures Valid(r)
  {
    var th := s.tasks[t].param.value;
    var rec := s.threads[th];
    var s1 := PutThread(s, th, rec.(completed := true));
    var s2 := SetTls(s1, t, None);
    var s3 := NotifyIfAny(s2, rec.joiner);
    var r := DeleteSelf(s3, t);
    FinishPreservesValid(s, r, t, th);
    r
  }

  lemma FinishPreservesValid(s: Sys, r: Sys, t: TaskId, th: ThreadRef)
    requires Valid(s) && Executing(s, t)
    requires s.tasks[t].param == Some(th) && th in s.threads
    requires r.threads == s.threads[th := s.threads[th].(completed := true)]
    requires r.tasks.Keys == s.tasks.Keys
    requires !r.tasks[t].alive && r.tasks[t].param == s.tasks[t].param && r.tasks[t].tls.None?
    requires forall u | u in s.tasks && u != t :: r.tasks[u] == s.tasks[u].(notify := r.tasks[u].notify)
    requires r.nextTask == s.nextTask && r.nextThread == s.nextThread && r.procs == s.procs && r.nextProc == s.nextProc
    ensures Valid(r)
  {
    assert s.threads[th].handle == Some(t) && s.threads[th].hasEntry && !s.threads[th].completed;
    assert !Claims(r.threads[th]);
    assert EndedSound(r) by {
      forall x | x in r.threads && r.threads[x].handle.Some? && !Claims(r.threads[x]) ensures !Alive(r, r.threads[x].handle.value) {
        if x != th {
          assert !Alive(s, s.threads[x].handle.value);
        }
      }
    }
    assert ClaimsBound(r) by {
      forall x | x in r.threads && Claims(r.threads[x]) ensures BoundTo(r, r.threads[x].handle.value, x) {
        assert x != th;
        assert BoundTo(s, s.threads[x].handle.value, x);
        if s.threads[x].handle == Some(t) {
          ClaimsUnique(s, x, th);
        }
      }
    }
    assert TlsSound(r) by {
      forall u | u in r.tasks && r.tasks[u].alive && r.tasks[u].tls.Some?
        ensures r.tasks[u].tls.value in r.threads && r.threads[r.tasks[u].tls.value].handle == Some(u) && Claims(r.threads[r.tasks[u].tls.value])
      {
        assert u != t;
        assert s.tasks[u].tls == r.tasks[u].tls;
      }
    }
    assert ParamSound(r) by {
      forall u | u in r.tasks && r.tasks[u].alive && r.tasks[u].param.Some? && r.tasks[u].param.value in r.threads
        ensures r.threads[r.tasks[u].param.value].handle == Some(u) && r.threads[r.tasks[u].param.value].hasEntry && !r.threads[r.tasks[u].param.value].completed
      {
        assert u != t;
        assert s.tasks[u].param == r.tasks[u].param;
      }
    }
  }

  // ---------------------------------------------------------------------
  // Destroy
  // ---------------------------------------------------------------------

  /** Whether destroy deletes the record's task: only a task that has not
      completed and is not the caller. */
  predicate DestroyDeletes(rec: Thread, caller: Option<TaskId>) {
    !rec.completed && rec.handle.Some? && Some(rec.handle.value) != caller
  }

  /** _thread_destroy as written: TLS is inspected only while the record has
      not completed, the task is deleted only if it has not completed and is
      not the caller, and the record is freed. */
  function DestroyAsWritten(s: Sys, r: Option<ThreadRef>, caller: Option<TaskId>): (o: Sys)
    requires Valid(s)
    requires caller.Some? ==> Executing(s, caller.value)
    requires r.Some? ==> r.value in s.threads
    ensures r.None? ==> o == s
    ensures r.Some? ==> o.threads == s.threads - {r.value}
    ensures r.Some? ==> var rec := s.threads[r.value];
      && o.tasks.Keys == s.tasks.Keys
      && (forall u: TaskId :: Alive(o, u) <==> Alive(s, u) && !(DestroyDeletes(rec, caller) && Some(u) == rec.handle))
      && (forall u | u in s.tasks && s.tasks[u].tls.Some? && s.tasks[u].tls != r :: o.tasks[u].tls == s.tasks[u].tls)
      && (!rec.completed && rec.handle.Some? ==> o.tasks[rec.handle.value].tls != r)
    ensures r.Some? && s.threads[r.value].completed ==> o.tasks == s.tasks
  {
    if r.None? then s
    else
      var th := r.value;
      var rec := s.threads[th];
      var s1 :=
        if rec.handle.Some? && !rec.completed && s.tasks[rec.handle.value].tls == Some(th) then
          SetTls(s, rec.handle.value, None)
        else s;
      var s2 := if DestroyDeletes(rec, caller) then DeleteTask(s1, rec.handle.value) else s1;
      FreeThread(s2, th)
  }

  /** _thread_destroy with the TLS guard widened to every record that still
      claims its task, so that destroying a lazily registered record clears
      the slot that points at it. Everything else as written. */
  function Destroy(s: Sys, r: Option<ThreadRef>, caller: Option<TaskId>): (o: Sys)
    requires Valid(s)
    requires caller.Some? ==> Executing(s, caller.value)
    requires r.Some? ==> r.value in s.threads
    ensures r.None? ==> o == s
    ensures r.Some? ==> o.threads == s.threads - {r.value}
    ensures r.Some? ==> var rec := s.threads[r.value];
      && (forall u: TaskId :: Alive(o, u) <==> Alive(s, u) && !(DestroyDeletes(rec, caller) && Some(u) == rec.handle))
      && (forall u | Alive(o, u) && o.tasks[u].tls.Some? :: o.tasks[u].tls != r)
    ensures caller.Some? ==> Alive(o, caller.value)
    ensures Valid(o)
  {
    if r.None? then s
    else
      var th := r.value;
      var rec := s.threads[th];
      var s1 :=
        if Claims(rec) && s.tasks[rec.handle.value].tls == Some(th) then
          SetTls(s, rec.handle.value, None)
        else s;
      var s2 := if DestroyDeletes(rec, caller) then DeleteTask(s1, rec.handle.value) else s1;
      var o := FreeThread(s2, th);
      DestroyPreservesValid(s, o, th, caller);
      o
  }

  lemma DestroyPreservesValid(s: Sys, o: Sys, th: ThreadRef, caller: Option<TaskId>)
    requires Valid(s) && th in s.threads
    requires caller.Some? ==> Executing(s, caller.value)
    requires o.threads == s.threads - {th}
    requires o.tasks.Keys == s.tasks.Keys
    requires o.nextTask == s.nextTask && o.nextThread == s.nextThread && o.procs == s.procs && o.nextProc == s.nextProc
    requires var rec := s.threads[th];
      && (forall u | u in s.tasks :: o.tasks[u].started == s.tasks[u].started && o.tasks[u].param == s.tasks[u].param)
      && (forall u | u in s.tasks :: o.tasks[u].reaping == s.tasks[u].reaping)
      && (forall u | u in s.tasks :: o.tasks[u].alive == (s.tasks[u].alive && !(DestroyDeletes(rec, caller) && Some(u) == rec.handle)))
      && (forall u | u in s.tasks && s.tasks[u].tls != Some(th) :: o.tasks[u].tls == s.tasks[u].tls)
      && (forall u | u in s.tasks && s.tasks[u].tls == Some(th) :: o.tasks[u].tls == None || !o.tasks[u].alive)
    ensures Valid(o)
  {
    var rec := s.threads[th];
    assert ClaimsBound(o) by {
      forall x | x in o.threads && Claims(o.threads[x]) ensures BoundTo(o, o.threads[x].handle.value, x) {
        assert BoundTo(s, s.threads[x].handle.value, x);
        var u := s.threads[x].handle.value;
        if Claims(rec) && rec.handle == Some(u) {
          ClaimsUnique(s, x, th);
        }
      }
    }
    assert UnstartedSound(o) by {
      forall u | u in o.tasks && o.tasks[u].alive && !o.tasks[u].started
        ensures o.tasks[u].param.Some? && o.tasks[u].param.value in o.threads && o.tasks[u].tls.None?
      {
        if s.tasks[u].param == Some(th) {
          assert false;
        }
      }
    }
  }

  /** Destroying the record a task obtained from current() for itself,
      using the code as written, leaves that task's TLS slot naming the freed
      record: the lazily registered record is "completed" from birth, so the
      TLS guard skips it. */
  lemma DestroyAsWrittenLeavesDanglingTls(s: Sys, caller: TaskId)
    requires Valid(s) && Executing(s, caller) && s.tasks[caller].tls.None?
    ensures
      var c := Current(s, Some(caller), true);
      && c.v.Some?
      && var o := DestroyAsWritten(c.s, c.v, Some(caller));
      && Alive(o, caller)
      && o.tasks[caller].tls == c.v
      && c.v.value !in o.threads
  {
  }

  /** With the widened guard the same call leaves the slot empty, so a later
      current() registers the task afresh. */
  lemma DestroyCurrentClearsTls(s: Sys, caller: TaskId)
    requires Valid(s) && Executing(s, caller) && s.tasks[caller].tls.None?
    ensures
      var c := Current(s, Some(caller), true);
      && c.v.Some?
      && var o := Destroy(c.s, c.v, Some(caller));
      && Alive(o, caller)
      && o.tasks[caller].tls.None?
      && Valid(o)
  {
  }

  // ---------------------------------------------------------------------
  // Join
  // ---------------------------------------------------------------------

  /** A join call either has returned a code or is blocked waiting for a
      notification. */
  datatype Joining = Joined(status: Status) | Waiting

  /** First half of _thread_join: the checks and the joiner registration in
      one critical section. NULL and an already joined record give EINVAL, a
      registered joiner gives EBUSY, each leaving the state unchanged; a
      completed record is joined at once; otherwise the caller registers as
      joiner and blocks. */
  function JoinStart(s: Sys, r: Option<ThreadRef>, caller: TaskId): (o: Out<Joining>)
    requires Valid(s) && Executing(s, caller)
    requires r.Some? ==> r.value in s.threads
    ensures r.None? ==> o == Out(s, Joined(Einval))
    ensures r.Some? && s.threads[r.value].joined ==> o == Out(s, Joined(Einval))
    ensures r.Some? && !s.threads[r.value].joined && s.threads[r.value].joiner.Some? ==> o == Out(s, Joined(Ebusy))
    ensures r.Some? && !s.threads[r.value].joined && s.threads[r.value].joiner.None? && s.threads[r.value].completed ==>
      o == Out(PutThread(s, r.value, s.threads[r.value].(joined := true)), Joined(Success))
    ensures o.v == Joined(Success) ==>
      && r.Some? && s.threads[r.value].completed
      && o.s == PutThread(s, r.value, s.threads[r.value].(joined := true))
    ensures o.v == Waiting <==> r.Some? && !s.threads[r.value].joined && s.threads[r.value].joiner.None? && !s.threads[r.value].completed
    ensures o.v == Waiting ==> o.s == PutThread(s, r.value, s.threads[r.value].(joiner := Some(caller)))
    ensures o.v.Joined? && o.v.status != Success ==> o.s == s
    ensures Valid(o.s)
  {
    if r.None? then Out(s, Joined(Einval))
    else
      var th := r.value;
      var rec := s.threads[th];
      if rec.joined then Out(s, Joined(Einval))
      else if rec.joiner.Some? then Out(s, Joined(Ebusy))
      else if rec.completed then
        SameLifecyclePreservesValid(s, th, rec.(joined := true));
        Out(PutThread(s, th, rec.(joined := true)), Joined(Success))
      else
        SameLifecyclePreservesValid(s, th, rec.(joiner := Some(caller)));
        Out(PutThread(s, th, rec.(joiner := Some(caller))), Waiting)
  }

  /** Second half of _thread_join: the blocked ulTaskNotifyTake(pdTRUE,
      portMAX_DELAY) returns once a notification is pending, consuming it;
      the record is then re-checked, and joined if it has completed, else the
      caller blocks again. With nothing pending the caller stays blocked. */
  function JoinResume(s: Sys, th: ThreadRef, caller: TaskId): (o: Out<Joining>)
    requires Valid(s) && Executing(s, caller) && th in s.threads
    ensures s.tasks[caller].notify == 0 ==> o == Out(s, Waiting)
    ensures o.v == Joined(Success) <==> s.tasks[caller].notify > 0 && s.threads[th].completed
    ensures o.s.threads.Keys == s.threads.Keys && o.s.tasks.Keys == s.tasks.Keys
    ensures o.v.Joined? ==> o.v == Joined(Success) && o.s.threads[th].joined
    ensures s.tasks[caller].notify > 0 ==> o.s.tasks[caller].notify == 0
    ensures Valid(o.s)
  {
    if s.tasks[caller].notify == 0 then Out(s, Waiting)
    else
      var s1 := s.(tasks := s.tasks[caller := s.tasks[caller].(notify := 0)]);
      NotifyTakePreservesValid(s, caller);
      if s1.threads[th].completed then
        SameLifecyclePreservesValid(s1, th, s1.threads[th].(joined := true));
        Out(PutThread(s1, th, s1.threads[th].(joined := true)), Joined(Success))
      else Out(s1, Waiting)
  }

  // ---------------------------------------------------------------------
  // Kill
  // ---------------------------------------------------------------------

  /** The task _thread_kill as written hands to vTaskDelete: another task's
      handle whenever it is set, or the caller itself (vTaskDelete(NULL))
      when the record is the caller's own. Either way it is whatever the
      handle names, whether or not that task has already ended. */
  function KillTargetAsWritten(rec: Thread): (t: Option<TaskId>)
    ensures t == rec.handle
  {
    // The self-kill branch calls vTaskDelete(NULL), which names the same
    // task as the handle, so both branches delete rec.handle.
    rec.handle
  }

  /** The task kill deletes, under the guard destroy already relies on: the
      record's task only while the record still claims it, that is, unless
      the task has returned from its entry and deleted itself. */
  function KillTarget(rec: Thread): (t: Option<TaskId>)
    ensures t.Some? <==> Claims(rec)
    ensures t.Some? ==> t == rec.handle
  {
    if Claims(rec) then rec.handle else None
  }

  /** On a valid state the corrected target is the as-written target
      restricted to live tasks: the two differ exactly when the handle names
      a task that has ended. A record that is the caller's own is still
      killed by deleting the caller. */
  lemma KillTargetIsLiveHandle(s: Sys, th: ThreadRef, caller: Option<TaskId>)
    requires Valid(s) && th in s.threads
    requires caller.Some? ==> Executing(s, caller.value)
    ensures var rec := s.threads[th];
      && (KillTarget(rec).Some? <==> rec.handle.Some? && Alive(s, rec.handle.value))
      && (KillTarget(rec) == KillTargetAsWritten(rec) <==> rec.handle.None? || Alive(s, rec.handle.value))
      && (rec.handle.Some? && rec.handle == caller ==> KillTarget(rec) == caller)
  {
    var rec := s.threads[th];
    if Claims(rec) {
      assert BoundTo(s, rec.handle.value, th);
    }
  }

  /** _thread_kill: NULL gives EINVAL. Otherwise, in one critical section,
      the record is marked completed and the joiner captured; the joiner is
      notified; then the target task's TLS slot is cleared, the task is
      deleted and the record forgets its handle. When the target is the
      caller the call does not return: the caller deletes itself and stays
      listed until the idle task frees it. The exit status is not stored. */
  function Kill(s: Sys, r: Option<ThreadRef>, status: int, caller: Option<TaskId>): (o: Out<Status>)
    requires Valid(s)
    requires caller.Some? ==> Executing(s, caller.value)
    requires r.Some? ==> r.value in s.threads
    ensures r.None? ==> o == Out(s, Einval)
    ensures r.Some? ==>
      var rec := s.threads[r.value];
      && o.v == Success
      && o.s.threads.Keys == s.threads.Keys
      && o.s.threads[r.value].completed
      && o.s.threads[r.value].joined == rec.joined
      && o.s.threads[r.value].joiner == rec.joiner
      && (forall x | x in s.threads && x != r.value :: o.s.threads[x] == s.threads[x])
      && (forall u: TaskId :: Alive(o.s, u) <==> Alive(s, u) && Some(u) != KillTarget(rec))
      && o.s.tasks.Keys == s.tasks.Keys
      && (forall u | u in s.tasks ::
            o.s.tasks[u] == s.tasks[u].(notify := o.s.tasks[u].notify, alive := o.s.tasks[u].alive, tls := o.s.tasks[u].tls, reaping := o.s.tasks[u].reaping))
      && (forall u | u in s.tasks :: o.s.tasks[u].tls == if Some(u) == KillTarget(rec) then None else s.tasks[u].tls)
      && (forall u | u in s.tasks :: o.s.tasks[u].reaping == (s.tasks[u].reaping || (Some(u) == KillTarget(rec) && Some(u) == caller)))
      && (rec.joiner.Some? && Alive(s, rec.joiner.value) && Some(rec.joiner.value) != KillTarget(rec) ==>
            o.s.tasks[rec.joiner.value].notify == s.tasks[rec.joiner.value].notify + 1)
    ensures Valid(o.s)
  {
    if r.None? then Out(s, Einval)
    else
      KillOutcome(s, r.value, caller);
      Out(KillState(s, r.value, caller), Success)
  }

  /** What kill's success case promises, stated of the state it leaves. */
  lemma KillOutcome(s: Sys, th: ThreadRef, caller: Option<TaskId>)
    requires Valid(s) && th in s.threads
    ensures var rec := s.threads[th]; var o := KillState(s, th, caller);
      && o.threads[th].completed
      && o.threads[th].joined == rec.joined
      && o.threads[th].joiner == rec.joiner
      && (forall u: TaskId :: Alive(o, u) <==> Alive(s, u) && Some(u) != KillTarget(rec))
      && (rec.joiner.Some? && Alive(s, rec.joiner.value) && Some(rec.joiner.value) != KillTarget(rec) ==>
            o.tasks[rec.joiner.value].notify == s.tasks[rec.joiner.value].notify + 1)
      && Valid(o)
  {
    var o := KillState(s, th, caller);
    KillStateNotifiesJoiner(s, th, caller);
    KillStateAlive(s, th, caller);
    KillPreservesValid(s, o, th, caller);
  }

  /** After kill exactly the target task has stopped being alive. */
  lemma KillStateAlive(s: Sys, th: ThreadRef, caller: Option<TaskId>)
    requires Valid(s) && th in s.threads
    ensures forall u: TaskId :: Alive(KillState(s, th, caller), u) <==> Alive(s, u) && Some(u) != KillTarget(s.threads[th])
  {
    var o := KillState(s, th, caller);
    forall u: TaskId ensures Alive(o, u) <==> Alive(s, u) && Some(u) != KillTarget(s.threads[th]) {
      if u in s.tasks {
        assert o.tasks[u].alive == (s.tasks[u].alive && Some(u) != KillTarget(s.threads[th]));
      }
    }
  }

  /** The state after kill's critical section, the joiner notification and
      the deletion of the target. */
  function KillState(s: Sys, th: ThreadRef, caller: Option<TaskId>): (o: Sys)
    requires Valid(s) && th in s.threads
    ensures var rec := s.threads[th]; var target := KillTarget(rec);
      && o.threads.Keys == s.threads.Keys
      && (forall x | x in s.threads && x != th :: o.threads[x] == s.threads[x])
      && o.threads[th] == rec.(completed := true, handle := if target.Some? then None else rec.handle)
      && o.tasks.Keys == s.tasks.Keys
      && (forall u | u in s.tasks ::
            o.tasks[u] == s.tasks[u].(notify := o.tasks[u].notify, alive := o.tasks[u].alive, tls := o.tasks[u].tls, reaping := o.tasks[u].reaping))
      && (forall u | u in s.tasks :: o.tasks[u].alive == (s.tasks[u].alive && Some(u) != target))
      && (forall u | u in s.tasks :: o.tasks[u].tls == if Some(u) == target then None else s.tasks[u].tls)
      && (forall u | u in s.tasks :: o.tasks[u].reaping == (s.tasks[u].reaping || (Some(u) == target && Some(u) == caller)))
      && o.nextTask == s.nextTask && o.nextThread == s.nextThread && o.procs == s.procs && o.nextProc == s.nextProc
  {
    var rec := s.threads[th];
    var target := KillTarget(rec);
    var m := KillMark(s, th);
    assert target.Some? ==> BoundTo(s, rec.handle.value, th);
    KillDelete(m, th, target, caller)
  }

  /** Kill's critical section and wake-up: the record is marked completed
      and its joiner, if alive, gets a notification. */
  function KillMark(s: Sys, th: ThreadRef): (o: Sys)
    requires th in s.threads
    ensures o.threads == s.threads[th := s.threads[th].(completed := true)]
    ensures o.tasks.Keys == s.tasks.Keys
    ensures forall u | u in s.tasks :: o.tasks[u] == s.tasks[u].(notify := o.tasks[u].notify)
    ensures var j := s.threads[th].joiner;
      j.Some? && Alive(s, j.value) ==> o.tasks[j.value].notify == s.tasks[j.value].notify + 1
    ensures o == s.(threads := o.threads, tasks := o.tasks)
  {
    var s1 := s.(threads := s.threads[th := s.threads[th].(completed := true)]);
    NotifyIfAny(s1, s.threads[th].joiner)
  }

  /** Kill's deletion: the target task, if any, has its TLS slot cleared,
      as thread_wrapper does before deleting itself, and is deleted (by
      vTaskDelete(NULL) when it is the caller); the record forgets its
      handle. */
  function KillDelete(s: Sys, th: ThreadRef, target: Option<TaskId>, caller: Option<TaskId>): (o: Sys)
    requires th in s.threads
    requires target.Some? ==> Alive(s, target.value)
    ensures o.threads == if target.Some? then s.threads[th := s.threads[th].(handle := None)] else s.threads
    ensures o.tasks.Keys == s.tasks.Keys
    ensures forall u | u in s.tasks ::
      o.tasks[u] == s.tasks[u].(alive := s.tasks[u].alive && Some(u) != target,
                                tls := if Some(u) == target then None else s.tasks[u].tls,
                                reaping := s.tasks[u].reaping || (Some(u) == target && Some(u) == caller))
    ensures o == s.(threads := o.threads, tasks := o.tasks)
  {
    if target.Some? then
      var t := target.value;
      var s1 := SetTls(s, t, None);
      var d := if target == caller then DeleteSelf(s1, t) else DeleteTask(s1, t);
      d.(threads := d.threads[th := s.threads[th].(handle := None)])
    else
      assert s.tasks == map u | u in s.tasks ::
        s.tasks[u].(alive := s.tasks[u].alive && Some(u) != target,
                    tls := if Some(u) == target then None else s.tasks[u].tls,
                    reaping := s.tasks[u].reaping || (Some(u) == target && Some(u) == caller));
      s
  }

  /** The state _thread_kill as written leaves: kill's critical section and
      wake-up, then vTaskDelete of whatever the handle names, the caller
      deleting itself through vTaskDelete(NULL). No TLS slot is cleared and
      the record keeps its handle. A handle naming a task that has already
      ended, the subject of the first finding, is left alone here: deleting
      a task twice is beyond what the kernel model expresses. */
  function KillStateAsWritten(s: Sys, th: ThreadRef, caller: Option<TaskId>): (o: Sys)
    requires th in s.threads
    ensures o.threads == s.threads[th := s.threads[th].(completed := true)]
    ensures o.tasks.Keys == s.tasks.Keys
    ensures forall u | u in s.tasks :: o.tasks[u].tls == s.tasks[u].tls
    ensures forall u: TaskId :: Alive(o, u) <==> Alive(s, u) && Some(u) != s.threads[th].handle
    ensures var h := s.threads[th].handle;
      h.Some? && h == caller && Alive(s, h.value) ==> o.tasks[h.value].reaping
  {
    var m := KillMark(s, th);
    var h := s.threads[th].handle;
    if h.Some? && Alive(m, h.value) then
      if h == caller then DeleteSelf(m, h.value) else DeleteTask(m, h.value)
    else m
  }

  /** Kill wakes a live joiner unless the joiner is the task it deletes. */
  lemma KillStateNotifiesJoiner(s: Sys, th: ThreadRef, caller: Option<TaskId>)
    requires Valid(s) && th in s.threads
    ensures var j := s.threads[th].joiner; var o := KillState(s, th, caller);
      j.Some? && Alive(s, j.value) && j != KillTarget(s.threads[th]) ==> j.value in o.tasks && o.tasks[j.value].notify == s.tasks[j.value].notify + 1
  {
  }

  lemma KillPreservesValid(s: Sys, o: Sys, th: ThreadRef, caller: Option<TaskId>)
    requires Valid(s) && th in s.threads
    requires var rec := s.threads[th]; var target := KillTarget(rec);
      && o.threads.Keys == s.threads.Keys
      && (forall x | x in s.threads && x != th :: o.threads[x] == s.threads[x])
      && o.threads[th] == rec.(completed := true, handle := if target.Some? then None else rec.handle)
      && o.tasks.Keys == s.tasks.Keys
      && (forall u | u in s.tasks ::
            o.tasks[u] == s.tasks[u].(notify := o.tasks[u].notify, alive := o.tasks[u].alive, tls := o.tasks[u].tls, reaping := o.tasks[u].reaping))
      && (forall u | u in s.tasks :: o.tasks[u].alive == (s.tasks[u].alive && Some(u) != target))
      && (forall u | u in s.tasks :: o.tasks[u].tls == if Some(u) == target then None else s.tasks[u].tls)
      && (forall u | u in s.tasks :: o.tasks[u].reaping == (s.tasks[u].reaping || (Some(u) == target && Some(u) == caller)))
      && o.nextTask == s.nextTask && o.nextThread == s.nextThread && o.procs == s.procs && o.nextProc == s.nextProc
    ensures Valid(o)
  {
    var rec := s.threads[th];
    var target := KillTarget(rec);
    assert !Claims(o.threads[th]);
    assert ClaimsBound(o) by {
      forall x | x in o.threads && Claims(o.threads[x]) ensures BoundTo(o, o.threads[x].handle.value, x) {
        assert BoundTo(s, s.threads[x].handle.value, x);
        if target.Some? && s.threads[x].handle == target {
          ClaimsUnique(s, x, th);
        }
      }
    }
    assert EndedSound(o) by {
      forall x | x in o.threads && o.threads[x].handle.Some? && !Claims(o.threads[x]) ensures !Alive(o, o.threads[x].handle.value) {
        assert !Alive(s, s.threads[x].handle.value);
      }
    }
    assert TlsSound(o) by {
      forall u | u in o.tasks && o.tasks[u].alive && o.tasks[u].tls.Some?
        ensures o.tasks[u].tls.value in o.threads && o.threads[o.tasks[u].tls.value].handle == Some(u) && Claims(o.threads[o.tasks[u].tls.value])
      {
        assert s.tasks[u].tls == o.tasks[u].tls;
        assert o.tasks[u].tls.value != th;
      }
    }
    assert ParamSound(o) by {
      forall u | u in o.tasks && o.tasks[u].alive && o.tasks[u].param.Some? && o.tasks[u].param.value in o.threads
        ensures o.threads[o.tasks[u].param.value].handle == Some(u) && o.threads[o.tasks[u].param.value].hasEntry && !o.threads[o.tasks[u].param.value].completed
      {
        assert s.tasks[u].param == o.tasks[u].param;
        assert o.tasks[u].param.value != th;
      }
    }
  }

  /** Kill as written deletes a task that has already deleted itself: a
      thread that was created, ran and returned from its entry keeps its
      handle, and killing it afterwards hands that ended task to vTaskDelete.
      The corrected target is empty. */
  lemma KillAsWrittenDeletesEndedTask(s: Sys, cfg: Config, caller: TaskId)
    requires cfg.Ok() && Valid(s) && Executing(s, caller)
    ensures
      var c := Create(s, cfg, true, 4096, true, None, Some(caller), true, true);
      && c.v.Some?
      && var t := s.nextTask;
      && var f := WrapperFinish(WrapperStart(c.s, t), t);
      && var rec := f.threads[c.v.value];
      && KillTargetAsWritten(rec) == Some(t)
      && !Alive(f, t)
      && KillTarget(rec).None?
  {
    var c := Create(s, cfg, true, 4096, true, None, Some(caller), true, true);
    var t := s.nextTask;
    var w := WrapperStart(c.s, t);
    assert w.tasks[t].param == c.v;
  }

  // ---------------------------------------------------------------------
  // Current thread, lazy registration, unregistration
  // ---------------------------------------------------------------------

  /** The process a lazily registered record is attributed to: the init-time
      fallback when set, otherwise the current process (which, for a task
      without a record, is the system process). */
  function LazyProcess(s: Sys): Option<ProcRef> {
    if s.initProcess.Some? then s.initProcess else s.system
  }

  /** _thread_current: no current task gives NULL; a record in the caller's
      TLS slot is returned unchanged; otherwise a record is allocated with no
      entry (hence completed), stack size 0 and the lazily chosen process,
      and stored in the slot. An allocation failure gives NULL. */
  function Current(s: Sys, caller: Option<TaskId>, allocOk: bool): (o: Out<Option<ThreadRef>>)
    requires Valid(s)
    requires caller.Some? ==> Executing(s, caller.value)
    ensures caller.None? ==> o == Out(s, None)
    ensures CurrentTls(s, caller).Some? ==> o == Out(s, CurrentTls(s, caller))
    ensures caller.Some? && CurrentTls(s, caller).None? && !allocOk ==> o == Out(s, None)
    ensures caller.Some? && CurrentTls(s, caller).None? && allocOk ==>
      && o.v == Some(s.nextThread)
      && s.nextThread !in s.threads
      && o.s.threads == s.threads[s.nextThread := NewRecord(caller, false, LazyProcess(s), 0)]
      && o.s.tasks == s.tasks[caller.value := s.tasks[caller.value].(tls := o.v)]
      && o.s.nextThread == s.nextThread + 1
      && o.s == s.(threads := o.s.threads, tasks := o.s.tasks, nextThread := o.s.nextThread)
    ensures o.v.Some? ==> o.v.value in o.s.threads && CurrentTls(o.s, caller) == o.v
    ensures Valid(o.s)
  {
    if caller.None? then Out(s, None)
    else
      var t := caller.value;
      if s.tasks[t].tls.Some? then Out(s, s.tasks[t].tls)
      else if !allocOk then Out(s, None)
      else
        var th := s.nextThread;
        var proc := if s.initProcess.Some? then s.initProcess else Processes.ProcessCurrent(s, caller);
        var rec := NewRecord(caller, false, proc, 0);
        var o := s.(threads := s.threads[th := rec], nextThread := th + 1, tasks := s.tasks[t := s.tasks[t].(tls := Some(th))]);
        LazyRegisterPreservesValid(s, o, th, t, proc);
        Out(o, Some(th))
  }

  lemma LazyRegisterPreservesValid(s: Sys, o: Sys, th: ThreadRef, t: TaskId, proc: Option<ProcRef>)
    requires Valid(s) && Executing(s, t) && s.tasks[t].tls.None?
    requires th == s.nextThread
    requires o.threads == s.threads[th := Thread(Some(t), false, true, false, None, proc, 0)]
    requires o.tasks == s.tasks[t := s.tasks[t].(tls := Some(th))]
    requires o.nextThread == th + 1 && o.nextTask == s.nextTask && o.procs == s.procs && o.nextProc == s.nextProc
    ensures Valid(o)
  {
    assert th !in s.threads;
    assert ClaimsBound(o) by {
      forall x | x in o.threads && Claims(o.threads[x]) ensures BoundTo(o, o.threads[x].handle.value, x) {
        if x != th {
          assert BoundTo(s, s.threads[x].handle.value, x);
          assert s.threads[x].handle != Some(t);
        }
      }
    }
    assert ParamSound(o) by {
      forall u | u in o.tasks && o.tasks[u].alive && o.tasks[u].param.Some? && o.tasks[u].param.value in o.threads
        ensures o.threads[o.tasks[u].param.value].handle == Some(u) && o.threads[o.tasks[u].param.value].hasEntry && !o.threads[o.tasks[u].param.value].completed
      {
        assert o.tasks[u].param.value < th;
      }
    }
  }

  /** current() is idempotent: once registered, the caller gets the same
      record back and nothing changes. */
  lemma CurrentIdempotent(s: Sys, caller: TaskId, ok1: bool, ok2: bool)
    requires Valid(s) && Executing(s, caller)
    ensures
      var a := Current(s, Some(caller), ok1);
      a.v.Some? ==> Current(a.s, Some(caller), ok2) == a
  {
  }

  /** A lazily registered record is "completed" from birth, so joining it
      succeeds at once, and destroying it never deletes the caller. */
  lemma LazyRecordCompletedAtBirth(s: Sys, caller: TaskId)
    requires Valid(s) && Executing(s, caller) && s.tasks[caller].tls.None?
    ensures
      var a := Current(s, Some(caller), true);
      && a.v.Some?
      && a.s.threads[a.v.value].completed
      && !a.s.threads[a.v.value].hasEntry
      && a.s.threads[a.v.value].stackSize == 0
      && JoinStart(a.s, a.v, caller).v == Joined(Success)
      && Alive(Destroy(a.s, a.v, Some(caller)), caller)
  {
  }

  /** dmosi_thread_set_init_process. */
  function SetInitProcess(s: Sys, p: Option<ProcRef>): (o: Sys)
    ensures o.initProcess == p
    ensures o == s.(initProcess := p)
  {
    s.(initProcess := p)
  }

  /** With the fallback installed, lazy registration attributes the caller
      to it; once cleared, to the system process. */
  lemma InitProcessGovernsLazyRegistration(s: Sys, caller: TaskId, p: Option<ProcRef>)
    requires Valid(s) && Executing(s, caller) && s.tasks[caller].tls.None?
    ensures
      var a := Current(SetInitProcess(s, p), Some(caller), true);
      && a.v.Some?
      && a.s.threads[a.v.value].process == (if p.Some? then p else s.system)
      && Processes.ProcessCurrent(a.s, Some(caller)) == (if p.Some? then p else s.system)
  {
    var s1 := SetInitProcess(s, p);
    assert Valid(s1) by {
      assert ClaimsBound(s1) by {
        forall x | x in s1.threads && Claims(s1.threads[x]) ensures BoundTo(s1, s1.threads[x].handle.value, x) {
          assert BoundTo(s, s.threads[x].handle.value, x);
        }
      }
    }
  }

  /** dmosi_thread_unregister_current: clears the caller's TLS slot and frees
      the record it named; no-op without a current task or a record. */
  function UnregisterCurrent(s: Sys, caller: Option<TaskId>): (o: Sys)
    requires Valid(s)
    requires caller.Some? ==> Executing(s, caller.value)
    ensures CurrentTls(s, caller).None? ==> o == s
    ensures CurrentTls(s, caller).Some? ==>
      && o.threads == s.threads - {CurrentTls(s, caller).value}
      && CurrentTls(o, caller).None?
      && (forall u :: Alive(o, u) == Alive(s, u))
    ensures Valid(o)
  {
    var tl := CurrentTls(s, caller);
    if tl.None? then s
    else
      var t := caller.value;
      var th := tl.value;
      var o := FreeThread(SetTls(s, t, None), th);
      assert s.threads[th].handle == Some(t);
      DestroyPreservesValid(s, o, th, caller);
      o
  }

  /** _thread_get_process: the record's process; NULL means the caller's own
      record, registered lazily if need be, and NULL comes back when that
      fails. */
  function GetProcess(s: Sys, r: Option<ThreadRef>, caller: Option<TaskId>, allocOk: bool): (o: Out<Option<ProcRef>>)
    requires Valid(s)
    requires caller.Some? ==> Executing(s, caller.value)
    requires r.Some? ==> r.value in s.threads
    ensures r.Some? ==> o == Out(s, s.threads[r.value].process)
    ensures r.None? ==> o.s == Current(s, caller, allocOk).s
    ensures r.None? && Current(s, caller, allocOk).v.None? ==> o.v.None?
    ensures Valid(o.s)
  {
    if r.Some? then Out(s, s.threads[r.value].process)
    else
      var c := Current(s, caller, allocOk);
      if c.v.None? then Out(c.s, None) else Out(c.s, c.s.threads[c.v.value].process)
  }

  /** The process reported for the caller's own record agrees with
      process_current once the caller is registered. */
  lemma GetProcessOfCallerIsCurrentProcess(s: Sys, caller: TaskId)
    requires Valid(s) && Executing(s, caller) && s.tasks[caller].tls.Some?
    requires s.threads[s.tasks[caller].tls.value].process.Some?
    ensures GetProcess(s, None, Some(caller), false).v == Processes.ProcessCurrent(s, Some(caller))
  {
  }

  /** After unregistering, current() registers the caller again with a new
      record. */
  lemma UnregisterThenCurrentReregisters(s: Sys, caller: TaskId)
    requires Valid(s) && Executing(s, caller) && s.tasks[caller].tls.Some?
    ensures
      var u := UnregisterCurrent(s, Some(caller));
      var c := Current(u, Some(caller), true);
      c.v.Some? && c.v != s.tasks[caller].tls && c.v.value !in s.threads
  {
  }

  /** _thread_sleep's tick count: a non-zero sleep blocks for at least one
      tick, a zero sleep only yields. */
  lemma SleepBlocksAtLeastOneTick(cfg: Config, ms: nat)
    requires cfg.Ok()
    ensures ms > 0 ==> Ticks.MsToTicks(ms, cfg.hz) >= 1
    ensures ms == 0 ==> Ticks.MsToTicks(ms, cfg.hz) == 0
    ensures ms * cfg.hz >= 1000 ==> Ticks.MsToTicks(ms, cfg.hz) == ms * cfg.hz / 1000
  {
  }

  // ---------------------------------------------------------------------
  // Join scenarios: create, run, finish or kill, join
  // ---------------------------------------------------------------------

  /** Joining a thread after it returned from its entry succeeds at once,
      and joining it a second time is refused. */
  lemma JoinAfterFinish(s: Sys, t: TaskId, caller: TaskId)
    requires Valid(s) && Executing(s, t) && Executing(s, caller) && caller != t
    requires s.tasks[t].param.Some? && s.tasks[t].param.value in s.threads
    requires !s.threads[s.tasks[t].param.value].joined && s.threads[s.tasks[t].param.value].joiner.None?
    ensures
      var th := s.tasks[t].param.value;
      var f := WrapperFinish(s, t);
      && Executing(f, caller) && th in f.threads
      && var j := JoinStart(f, Some(th), caller);
      && j.v == Joined(Success)
      && JoinStart(j.s, Some(th), caller).v == Joined(Einval)
  {
  }

  /** A joiner that blocked on a running thread is woken by the thread's
      completion and then returns 0. */
  lemma BlockedJoinWokenByFinish(s: Sys, t: TaskId, caller: TaskId)
    requires Valid(s) && Executing(s, t) && Executing(s, caller) && caller != t
    requires s.tasks[t].param.Some? && s.tasks[t].param.value in s.threads
    requires !s.threads[s.tasks[t].param.value].joined && s.threads[s.tasks[t].param.value].joiner.None?
    ensures
      var th := s.tasks[t].param.value;
      var j := JoinStart(s, Some(th), caller);
      && j.v == Waiting
      && Executing(j.s, t) && j.s.tasks[t].param == Some(th) && th in j.s.threads
      && var f := WrapperFinish(j.s, t);
      && Executing(f, caller) && th in f.threads
      && f.tasks[caller].notify > 0
      && JoinResume(f, th, caller).v == Joined(Success)
  {
    var th := s.tasks[t].param.value;
    var j := JoinStart(s, Some(th), caller);
    assert j.s.threads[th].joiner == Some(caller);
  }

  /** Killing a thread that is not the caller's own lets the caller join it
      at once. */
  lemma KillThenJoin(s: Sys, th: ThreadRef, caller: TaskId)
    requires Valid(s) && Executing(s, caller) && th in s.threads
    requires s.threads[th].handle != Some(caller)
    requires !s.threads[th].joined && s.threads[th].joiner.None?
    ensures
      var k := Kill(s, Some(th), 0, Some(caller));
      && k.v == Success
      && Executing(k.s, caller) && th in k.s.threads
      && JoinStart(k.s, Some(th), caller).v == Joined(Success)
  {
    var k := Kill(s, Some(th), 0, Some(caller));
    assert k.s == KillState(s, th, Some(caller));
    assert Alive(k.s, caller);
  }

  /** A joiner that blocked on a running thread is woken when another task
      kills that thread, and then returns 0. */
  lemma BlockedJoinWokenByKill(s: Sys, th: ThreadRef, caller: TaskId, killer: TaskId)
    requires Valid(s) && Executing(s, caller) && Executing(s, killer) && caller != killer && th in s.threads
    requires s.threads[th].handle != Some(caller)
    requires !s.threads[th].joined && s.threads[th].joiner.None? && !s.threads[th].completed
    ensures
      var j := JoinStart(s, Some(th), caller);
      && j.v == Waiting
      && Executing(j.s, killer)
      && var k := Kill(j.s, Some(th), 0, Some(killer));
      && Executing(k.s, caller) && th in k.s.threads
      && k.s.tasks[caller].notify > 0
      && JoinResume(k.s, th, caller).v == Joined(Success)
  {
    var j := JoinStart(s, Some(th), caller);
    var k := Kill(j.s, Some(th), 0, Some(killer));
    assert k.s == KillState(j.s, th, Some(killer));
    KillStateNotifiesJoiner(j.s, th, Some(killer));
    assert Alive(k.s, caller);
  }
}

=== FILE: ticks.dfy ===
/** Conversions between milliseconds and scheduler ticks, and the mapping of
    a bounded kernel wait onto the API's return codes. */
module Ticks {
  import opened Base

  /** TickType_t is taken to be 32 bits wide, as in every 32-bit target
      configuration (configTICK_TYPE_WIDTH_IN_BITS = TICK_TYPE_WIDTH_32_BITS);
      the 64-bit tick configurations are not modelled. */
  const TICK_MOD: nat := 0x1_0000_0000

  /** FreeRTOS pdMS_TO_TICKS: the whole number of ticks in `ms` milliseconds. */
  function MsToTicksFloor(ms: nat, hz: nat): (t: nat)
    requires hz > 0
    ensures t * 1000 <= ms * hz < (t + 1) * 1000
  {
    ms * hz / 1000
  }

  /** ms_to_ticks of the timer wrapper, and the same computation inline in
      _thread_sleep: pdMS_TO_TICKS, bumped to one tick when a non-zero
      duration would otherwise round to no delay at all. */
  function MsToTicks(ms: nat, hz: nat): (t: nat)
    requires hz > 0
    ensures ms == 0 ==> t == 0
    ensures ms > 0 ==> t >= 1
    ensures ms * hz >= 1000 ==> t * 1000 <= ms * hz < (t + 1) * 1000
    ensures 0 < ms * hz < 1000 ==> t == 1
  {
    var t := MsToTicksFloor(ms, hz);
    if ms > 0 && t == 0 then 1 else t
  }

  /** A TickType_t value. */
  type Tick = t: nat | t < TICK_MOD

  /** ms_to_ticks of the timer wrapper with pdMS_TO_TICKS's cast to
      TickType_t written out: the floor is truncated to 32 bits before the
      one-tick bump. It agrees with MsToTicks whenever the floor fits. */
  function MsToTickCount(ms: nat, hz: nat): (t: Tick)
    requires hz > 0
    ensures ms == 0 ==> t == 0
    ensures ms > 0 ==> t >= 1
    ensures MsToTicksFloor(ms, hz) < TICK_MOD ==> t == MsToTicks(ms, hz)
  {
    var f := MsToTicksFloor(ms, hz) % TICK_MOD;
    if ms > 0 && f == 0 then 1 else f
  }

  /** _timer_get_period as written: `period_ticks * 1000` is evaluated in
      TickType_t and so wraps modulo 2^32 before the division. */
  function TicksToMsAsWritten(ticks: nat, hz: nat): (ms: nat)
    requires hz > 0
    requires ticks < TICK_MOD
    ensures ms * hz <= (ticks * 1000) % TICK_MOD < (ms + 1) * hz
  {
    (ticks * 1000) % TICK_MOD / hz
  }

  /** _timer_get_period with the product widened to 64 bits: the whole number
      of milliseconds in `ticks` ticks. */
  function TicksToMs(ticks: nat, hz: nat): (ms: nat)
    requires hz > 0
    ensures ms * hz <= ticks * 1000 < (ms + 1) * hz
  {
    ticks * 1000 / hz
  }

  /** A 32-bit tick count times 1000 always fits in 64 bits, so the widened
      product never wraps. */
  lemma TicksTimesThousandFits64(ticks: nat)
    requires ticks < TICK_MOD
    ensures ticks * 1000 < 0x1_0000_0000_0000_0000
  {
  }

  /** Converting a period to ticks and back gives the period again whenever the
      period is a whole number of ticks. */
  lemma {:induction false} PeriodRoundTrip(ms: nat, hz: nat)
    requires hz > 0 && ms > 0
    requires (ms * hz) % 1000 == 0
    ensures TicksToMs(MsToTicks(ms, hz), hz) == ms
  {
    var t := ms * hz / 1000;
    assert t * 1000 == ms * hz;
    assert ms * hz >= 1000 by {
      assert ms * hz > 0;
    }
    assert t >= 1;
    assert MsToTicks(ms, hz) == t;
    assert t * 1000 / hz == ms * hz / hz;
    assert ms * hz / hz == ms;
  }

  /** When the period is at least one tick, the period read back never
      exceeds the one requested (the tick conversion rounds down). */
  lemma PeriodReadBackAtMostRequest(ms: nat, hz: nat)
    requires hz > 0
    requires ms * hz >= 1000
    ensures TicksToMs(MsToTicks(ms, hz), hz) <= ms
  {
    var t := MsToTicks(ms, hz);
    var back := TicksToMs(t, hz);
    assert back * hz <= t * 1000 <= ms * hz;
    LessAfterScaling(back, ms, hz);
  }

  /** When the period is shorter than one tick, the one-tick bump makes the
      period read back at least the one requested. */
  lemma PeriodReadBackAtLeastShortRequest(ms: nat, hz: nat)
    requires hz > 0
    requires 0 < ms * hz < 1000
    ensures TicksToMs(MsToTicks(ms, hz), hz) >= ms
  {
    var back := TicksToMs(1, hz);
    assert ms * hz < 1000 < (back + 1) * hz;
    LessAfterScaling(ms, back + 1, hz);
  }

  lemma LessAfterScaling(a: nat, b: nat, k: nat)
    requires k > 0
    requires a * k <= b * k
    ensures a <= b
  {
  }

  /** The test's period: 100 ms at a 1 kHz tick reads back as 100 ms. */
  lemma PeriodHundredMsRoundTrips()
    ensures TicksToMs(MsToTicks(100, 1000), 1000) == 100
    ensures TicksToMs(MsToTicks(100, 100), 100) == 100
  {
    PeriodRoundTrip(100, 1000);
    PeriodRoundTrip(100, 100);
  }

  /** Finding: a period of 5,000,000 ms at 1 kHz (5,000,000 ticks) reads back
      as 705,032 ms, because 5,000,000,000 wraps modulo 2^32. */
  lemma PeriodReadBackWrapsAsWritten()
    ensures MsToTicks(5000000, 1000) == 5000000
    ensures TicksToMsAsWritten(MsToTicks(5000000, 1000), 1000) == 705032
    ensures TicksToMs(MsToTicks(5000000, 1000), 1000) == 5000000
  {
  }

  /** The block time handed to the kernel: wait forever, or a bounded number
      of ticks (0 = do not block). */
  datatype Delay = Forever | Ticks(n: nat)

  /** What a blocking kernel call (xSemaphoreTake, xQueueSend,
      xQueueReceive) does: it returns pdTRUE, it returns pdFALSE, or it has
      not returned, because it waits with no limit and nobody has served it.
      portMAX_DELAY means "no limit" when INCLUDE_vTaskSuspend is set, which
      the wrappers' "-1 = wait forever" takes for granted. */
  datatype Answer = PdTrue | PdFalse | NoReturn

  /** The kernel's answer to a wait for something not available now: pdTRUE
      if the call may block and another task serves it in time (`served`);
      otherwise pdFALSE when the wait is bounded, and no return at all when
      it has no limit. */
  function Served(d: Delay, served: bool): (a: Answer)
    ensures a == PdTrue <==> d != Ticks(0) && served
    ensures a == NoReturn <==> d == Forever && !served
    ensures a == PdFalse <==> d.Ticks? && (d.n == 0 || !served)
  {
    if d != Ticks(0) && served then PdTrue
    else if d == Forever then NoReturn
    else PdFalse
  }

  /** The timeout convention of the semaphore, queue and process-wait
      wrappers: a negative timeout waits forever, 0 does not wait, and a
      positive one is converted by pdMS_TO_TICKS with no minimum bump. */
  function TimeoutDelay(timeoutMs: int, hz: nat): (d: Delay)
    requires hz > 0
    ensures timeoutMs < 0 <==> d == Forever
    ensures timeoutMs == 0 ==> d == Ticks(0)
    ensures timeoutMs > 0 ==> d.Ticks? && d.n * 1000 <= timeoutMs * hz < (d.n + 1) * 1000
  {
    if timeoutMs < 0 then Forever
    else if timeoutMs == 0 then Ticks(0)
    else Ticks(MsToTicksFloor(timeoutMs, hz))
  }

  /** For an int32_t timeout and a tick rate up to 2 kHz the converted tick
      count is a TickType_t value below portMAX_DELAY, so leaving out the
      32-bit truncation loses nothing and a bounded wait is never read as
      "forever". */
  lemma TimeoutTicksBelowMaxDelay(timeoutMs: int, hz: nat)
    requires 0 < hz <= 2000
    requires 0 < timeoutMs < 0x8000_0000
    ensures TimeoutDelay(timeoutMs, hz).n < TICK_MOD - 1
  {
    assert timeoutMs * hz <= timeoutMs * 2000;
    assert timeoutMs * 2000 <= 0x7FFF_FFFF * 2000;
  }

  /** A positive timeout shorter than one tick becomes a zero-tick wait. */
  lemma ShortTimeoutCollapsesToNoWait(timeoutMs: int, hz: nat)
    requires hz > 0
    requires timeoutMs > 0 && timeoutMs * hz < 1000
    ensures TimeoutDelay(timeoutMs, hz) == Ticks(0)
  {
  }

  /** The result of a semaphore or queue operation: 0 when the kernel call
      returned pdTRUE; after pdFALSE, "would block" exactly when no ticks
      were allowed and "timed out" otherwise; and no result while a wait
      with no limit is still blocked. */
  function WaitStatus(a: Answer, d: Delay): (r: Pending)
    ensures r == Done(Success) <==> a == PdTrue
    ensures r == Done(Eagain) <==> a == PdFalse && d == Ticks(0)
    ensures r == Done(Etimedout) <==> a == PdFalse && d != Ticks(0)
    ensures r == Blocked <==> a == NoReturn
  {
    match a
    case PdTrue => Done(Success)
    case PdFalse => if d == Ticks(0) then Done(Eagain) else Done(Etimedout)
    case NoReturn => Blocked
  }

  /** A wait for something not available now never times out when it has no
      limit: it is served with 0 or stays blocked. Only a positive timeout
      can time out. */
  lemma OnlyBoundedWaitsTimeOut(timeoutMs: int, hz: nat, served: bool)
    requires hz > 0
    ensures var d := TimeoutDelay(timeoutMs, hz);
      && (timeoutMs < 0 ==> WaitStatus(Served(d, served), d) in {Done(Success), Blocked})
      && (WaitStatus(Served(d, served), d) == Done(Etimedout) ==> timeoutMs > 0)
      && (WaitStatus(Served(d, served), d) == Blocked <==> timeoutMs < 0 && !served)
  {
  }

  /** The result of a timed-out process wait: decided by the millisecond
      value, not by the tick count. */
  function ProcessTimeoutStatus(timeoutMs: int): (r: Status)
    ensures r == Eagain <==> timeoutMs == 0
    ensures r == Etimedout <==> timeoutMs != 0
  {
    if timeoutMs == 0 then Eagain else Etimedout
  }

  /** The two wrappers disagree on a positive timeout that rounds to no
      ticks: the semaphore and queue report "would block", process wait
      reports "timed out". */
  lemma ShortTimeoutReportsDiffer(timeoutMs: int, hz: nat)
    requires hz > 0
    requires timeoutMs > 0 && timeoutMs * hz < 1000
    ensures WaitStatus(PdFalse, TimeoutDelay(timeoutMs, hz)) == Done(Eagain)
    ensures ProcessTimeoutStatus(timeoutMs) == Etimedout
  {
    ShortTimeoutCollapsesToNoWait(timeoutMs, hz);
  }
}

=== FILE: timers.dfy ===
/** dmosi_timer.c over an abstract FreeRTOS software timer. The wrapper's
    own logic is the parameter checks, the conversion of periods between
    milliseconds and ticks, and the mapping of the timer-command result onto
    a return code. Whether the timer service accepts a command is a
    parameter; the firing of the callback is not modelled. */
module Timers {
  import opened Base
  import opened Ticks

  /** A software timer: its period in ticks, whether it reloads, and
      whether it is active (running) or dormant. */
  datatype Timer = Timer(period: Tick, autoReload: bool, active: bool)

  /** _timer_create: NULL for a missing callback or a zero period, and when
      the allocation or xTimerCreate fails; otherwise a dormant timer whose
      period is the millisecond period converted by ms_to_ticks. */
  function Create(hasCallback: bool, periodMs: nat, autoReload: bool, hz: nat, allocOk: bool, kernelOk: bool): (r: Option<Timer>)
    requires hz > 0
    ensures r.Some? <==> hasCallback && periodMs > 0 && allocOk && kernelOk
    ensures r.Some? ==> !r.value.active && r.value.autoReload == autoReload
    ensures r.Some? ==> r.value.period >= 1 && r.value.period == MsToTickCount(periodMs, hz)
  {
    if !hasCallback || periodMs == 0 then None
    else if !allocOk || !kernelOk then None
    else Some(Timer(MsToTickCount(periodMs, hz), autoReload, false))
  }

  /** The three commands that only change whether the timer runs. */
  datatype Command = Start | Stop | Reset

  /** _timer_start, _timer_stop and _timer_reset: NULL gives EINVAL; a
      command the timer service does not accept (`kernelOk` false) gives EIO
      and changes nothing; otherwise start and reset make the timer active
      (reset also starts a dormant one) and stop makes it dormant. */
  function Control(t: Option<Timer>, c: Command, kernelOk: bool): (r: (Status, Option<Timer>))
    ensures t.None? ==> r == (Einval, None)
    ensures t.Some? && !kernelOk ==> r == (Eio, t)
    ensures r.0 == Success <==> t.Some? && kernelOk
    ensures r.0 == Success ==> r.1.Some? && r.1.value.active == (c != Stop)
    ensures r.1.Some? <==> t.Some?
    ensures r.1.Some? ==> r.1.value.period == t.value.period && r.1.value.autoReload == t.value.autoReload
  {
    if t.None? then (Einval, None)
    else if !kernelOk then (Eio, t)
    else (Success, Some(t.value.(active := c != Stop)))
  }

  /** _timer_set_period: NULL or a zero period gives EINVAL; EIO when the
      command is not accepted; otherwise the new period in ticks, and the
      timer runs afterwards (xTimerChangePeriod starts a dormant timer). */
  function SetPeriod(t: Option<Timer>, periodMs: nat, hz: nat, kernelOk: bool): (r: (Status, Option<Timer>))
    requires hz > 0
    ensures t.None? || periodMs == 0 ==> r == (Einval, t)
    ensures t.Some? && periodMs > 0 && !kernelOk ==> r == (Eio, t)
    ensures r.0 == Success <==> t.Some? && periodMs > 0 && kernelOk
    ensures r.0 == Success ==> r.1 == Some(Timer(MsToTickCount(periodMs, hz), t.value.autoReload, true))
  {
    if t.None? || periodMs == 0 then (Einval, t)
    else if !kernelOk then (Eio, t)
    else (Success, Some(Timer(MsToTickCount(periodMs, hz), t.value.autoReload, true)))
  }

  /** _timer_get_period as written: 0 for NULL, otherwise the period with
      the 32-bit product `period_ticks * 1000` wrapping before the division. */
  function GetPeriodAsWritten(t: Option<Timer>, hz: nat): (ms: nat)
    requires hz > 0
    ensures t.None? ==> ms == 0
    ensures t.Some? ==> ms * hz <= (t.value.period * 1000) % TICK_MOD < (ms + 1) * hz
  {
    if t.None? then 0 else TicksToMsAsWritten(t.value.period, hz)
  }

  /** _timer_get_period with the product widened: 0 for NULL, otherwise the
      whole number of milliseconds in the period, as a uint32_t. */
  function GetPeriod(t: Option<Timer>, hz: nat): (ms: nat)
    requires hz > 0
    ensures ms < TICK_MOD
    ensures t.None? ==> ms == 0
    ensures t.Some? && t.value.period * 1000 / hz < TICK_MOD ==>
      ms * hz <= t.value.period * 1000 < (ms + 1) * hz
  {
    if t.None? then 0 else TicksToMs(t.value.period, hz) % TICK_MOD
  }

  /** The two readings agree whenever the product does not wrap. */
  lemma GetPeriodAgreesBelowWrap(t: Timer, hz: nat)
    requires hz > 0
    ensures t.period * 1000 < TICK_MOD ==> GetPeriodAsWritten(Some(t), hz) == GetPeriod(Some(t), hz)
  {
    var p := t.period * 1000;
    if p < TICK_MOD {
      SmallModIdentity(p);
      DivAtMost(p, hz);
      SmallModIdentity(p / hz);
    }
  }

  lemma SmallModIdentity(x: nat)
    requires x < TICK_MOD
    ensures x % TICK_MOD == x
  {
  }

  /** Setting a period that is a whole number of ticks and reading it back
      gives the period again. */
  lemma SetThenGetPeriod(t: Timer, periodMs: nat, hz: nat)
    requires hz > 0 && 0 < periodMs < TICK_MOD
    requires (periodMs * hz) % 1000 == 0 && periodMs * hz / 1000 < TICK_MOD
    ensures SetPeriod(Some(t), periodMs, hz, true).0 == Success
    ensures GetPeriod(SetPeriod(Some(t), periodMs, hz, true).1, hz) == periodMs
  {
    PeriodRoundTrip(periodMs, hz);
  }

  /** A period of at least one tick reads back no larger than requested. */
  lemma GetPeriodAtMostRequest(t: Timer, periodMs: nat, hz: nat)
    requires hz > 0 && periodMs < TICK_MOD
    requires periodMs * hz >= 1000 && periodMs * hz / 1000 < TICK_MOD
    ensures GetPeriod(SetPeriod(Some(t), periodMs, hz, true).1, hz) <= periodMs
  {
    PeriodReadBackAtMostRequest(periodMs, hz);
  }

  /** Finding, at the timer's interface: a timer created with a period of
      5,000,000 ms at 1 kHz reports 705,032 ms as written, and 5,000,000 ms
      with the widened product. */
  lemma LongPeriodReadBackWrapsAsWritten()
    ensures
      var t := Create(true, 5000000, true, 1000, true, true);
      && t.Some?
      && GetPeriodAsWritten(t, 1000) == 705032
      && GetPeriod(t, 1000) == 5000000
  {
    PeriodReadBackWrapsAsWritten();
  }

  /** The scenario of the timer test at a 1 kHz tick: a 50 ms auto-reload
      timer is created dormant, starts, stops, is reset into running again,
      and after a change to 100 ms reports 100 ms; a missing callback, a
      zero period and a NULL handle are refused. */
  lemma TimerScenario()
    ensures
      var t0 := Create(true, 50, true, 1000, true, true);
      && t0 == Some(Timer(50, true, false))
      && var t1 := Control(t0, Start, true);
      && t1 == (Success, Some(Timer(50, true, true)))
      && var t2 := Control(t1.1, Stop, true);
      && t2 == (Success, Some(Timer(50, true, false)))
      && var t3 := Control(t2.1, Reset, true);
      && t3 == (Success, Some(Timer(50, true, true)))
      && var t4 := SetPeriod(t3.1, 100, 1000, true);
      && t4 == (Success, Some(Timer(100, true, true)))
      && GetPeriod(t4.1, 1000) == 100
    ensures Create(false, 100, false, 1000, true, true).None? && Create(true, 0, false, 1000, true, true).None?
    ensures forall c: Command :: Control(None, c, true).0 == Einval
    ensures SetPeriod(None, 100, 1000, true).0 == Einval && GetPeriod(None, 1000) == 0
  {
    assert MsToTicksFloor(50, 1000) == 50;
    assert MsToTicksFloor(100, 1000) == 100;
  }
}
